=== FILE: README.md ===
# Avocado campus marketplace — a Dafny model

Avocado is a campus marketplace. Students register with a university email,
verify it, sign in, list items to sell, rent or give away, and message
sellers. A scheduled job reminds borrowers that a rental is due. The server
is a single PHP script. It routes each request by endpoint, action and
method to one handler, and each handler reads or writes a MySQL database.
The browser scripts filter and sort a local product list, draw product
cards, keep a local message list with an unread badge, and check the
registration form before sending it.

This project models those pieces as pure functions over immutable data:

- **The `.env` loader** (`EnvFile`): how one line is split into a name and a
  value, and how the lines together build the environment.
- **The database** (`Store`): the `users`, `marketplace_items`,
  `direct_messages` and `rentals` tables as sequences of rows, with
  auto-increment counters. `WellFormed` says that ids are positive, distinct
  and below their counters.
- **The API handlers** (`ApiAuth`, `ApiMarketplace`, `ApiMessages`,
  `ApiCron`): each takes the request data, the store and a `Context` and
  returns an `Outcome` of status, response body and new store. The
  `Context` carries the clock, the configured cron key, the
  email-syntax test, the random bytes and the avatar pick.
- **The dispatcher** (`Api.Handle`): OPTIONS preflight, exact routing on
  (endpoint, action, method), and 404 for everything else.
- **The marketplace page** (`Marketplace`):
  - the filter and sort, including the in-place sort of the shared list
    under the filter 'all';
  - the price and label shown on a card;
  - the sidebar's top items;
  - the local messages and the unread count.
- **The authentication script** (`AuthClient`):
  - the registration form checks;
  - local verify, resend and logout;
  - the avatar colour pick.
- **`truncateText`** (`MainUtils`), over UTF-16 code units.
- **Client/server agreement** (`ClientServer`): whatever the form lets
  through passes the server's domain and length checks, and both sides use
  the same palette.

Shared helpers: `Wrappers` (Option, map lookup with a default), `Seqs`
(filter, count, take, drop, first index), `StableSort` (a stable sort on an
integer rank, used for SQL `ORDER BY` and for `Array.prototype.sort`),
`Text`, `Unicode`, `Numeric`, `Hex` and `ApiTypes`.

Some string conventions, and how PHP and JavaScript behaviours are encoded:

- **Strings** are sequences of Unicode scalar values.
  - PHP's `strlen` is `Unicode.Utf8Length`.
  - JavaScript's `length` is `Unicode.Utf16Length`.
  - `truncateText` works on UTF-16 code units, because `substring` can cut a
    surrogate pair in two.
- **PHP `empty()`** on a string is true for `""` and for `"0"`
  (`Text.PhpEmpty`).
- **`intval` and `parseInt`** read optional ASCII white space, an optional
  sign and a run of decimal digits (`Numeric.LeadingInt`).
- **SQL `ORDER BY` ties** keep insertion order in the model's functions; the
  listing and conversation contracts allow any order among tied rows.

The model follows the code as written, not a hardened version, with one
exception (the `condition` column below):

- A verification token is never cleared, so it keeps matching.
- The duplicate-email test compares each email only with its own column.
- Item creation needs only a non-empty `Authorization` header. It needs no
  field.
- A negative `limit` or `offset` reaches the SQL text unchanged and fails
  the query. The model answers 500.
- The item INSERT names the column `condition` without quoting it, and
  `condition` is a reserved word in MySQL. So preparing that statement fails
  on every authorized create, and the request ends in 500 with nothing
  stored. The model keeps this handler as written
  (`ApiMarketplace.CreateItemAsWritten`) next to the corrected one
  (`ApiMarketplace.CreateItem`), which the dispatcher uses; see "## Findings".
- Where the script ends in an uncaught error (a failed query or statement),
  the model answers 500. This assumes `display_errors` is off; with it on,
  PHP prints the error and leaves the status at 200.
- MySQL's `affected_rows` counts changed rows. So re-verifying a user
  already verified within the same second is a 400.

## Model

| member | source | states |
|---|---|---|
| EnvFile.ParseLine | backend/api.php:12-14 | a line yields a setting exactly when it has an '=' and does not start with '#'; the name is the trimmed text before the first '=', so it holds no '=', and the value the trimmed rest |
| EnvFile.LoadLastWins | backend/api.php:9-16 | after loading, a variable set by some line has the value of the last such line; any other keeps its earlier value, and no variable appears from nowhere |
| EnvFile.LoadFailsOnEmptyKey | backend/api.php:14 | a line whose name trims to empty makes loading fail (PHP 8 `putenv` rejects it) |
| Text.TrimIsMaximalInnerSlice | backend/api.php:14 | `trim` returns a contiguous slice that neither starts nor ends with white space, and everything removed is white space |
| Text.TrimIdempotent | backend/api.php:14 | trimming twice is trimming once |
| Text.IndexOf | backend/api.php:12 | `strpos` for one character: -1 exactly when it is absent, otherwise the index of its first occurrence |
| Numeric.ShowIntRoundTrip | backend/api.php:293-294 | `intval` reads back every integer from its decimal text |
| Hex.Bin2Hex | backend/api.php:118 | `bin2hex` of n bytes is 2n lower-case hexadecimal digits, so a 16-byte token has 32 |
| Hex.HexRoundTrip | backend/api.php:118 | the hex text decodes back to the bytes it encodes |
| Hex.Bin2HexInjective | backend/api.php:118 | different random bytes give different tokens |
| Store.HashPassword | backend/api.php:116 | the stored hash verifies the registered password and no other |
| Store.FindByPersonalEmail | backend/api.php:155-163 | the login query's row is the first user with that personal email, and there is none exactly when no user has it |
| ApiAuth.Register | backend/api.php:70-142 | the first failing check answers 400 in source order: missing field, email syntax, no ".edu" anywhere in any case, fewer than 6 bytes, email in use. Otherwise 201 appends exactly one unverified user with the next id, a 32-digit token, a palette colour and a hash of the password. A 400 leaves the store unchanged |
| ApiAuth.Login | backend/api.php:145-197 | never writes; 400 exactly for an empty email or password; 401 ("Invalid credentials") exactly when, with both given, no user has that personal email or the first such user's hash does not verify the password; 403 exactly when the password verifies and that user is unverified; so 200 exactly when it verifies a verified user, and then the body is that user's profile (no hash) |
| ApiAuth.LoginDoesNotLeak | backend/api.php:157-169 | an unknown email and a wrong password, verified or not, get the same 401 |
| ApiAuth.MarkVerified | backend/api.php:203 | exactly the users holding the token become verified at the current time; all others are untouched |
| ApiAuth.Verify | backend/api.php:200-219 | 200 with the "verified" body exactly when some user with the token changes; the users afterwards are `MarkVerified`'s: every token holder verified with the current time as its verification date, every other user unchanged; on 400 nothing changed; the token is kept, so it still matches afterwards |
| ApiAuth.RegisterVerifyLogin | backend/api.php:70-219 | a fresh registrant is refused 403, the returned token verifies them, and then the same credentials log in and return their own profile |
| ApiAuth.VerifyThenFind | backend/api.php:155-219 | redeeming the token of an unverified user answers 200, and the login lookup by that user's personal email then finds them verified at the current time |
| ApiAuth.FindAfterFreshEmail | backend/api.php:155-163 | login finds a user when no earlier user has the same personal email |
| ApiAuth.RegisterTwiceConflicts | backend/api.php:108-113 | once a registration succeeds, a second valid one reusing its personal email or its university email is refused as "already exists" |
| ApiAuth.RegisterPreservesWellFormed | backend/api.php:121-136 | registration keeps user ids fresh and distinct |
| ApiAuth.VerifyPreservesWellFormed | backend/api.php:203 | verification keeps every id |
| ApiMarketplace.PageLimit | backend/api.php:227 | the limit is `intval` of the parameter capped at 100, and 50 when absent; it has no lower bound |
| ApiMarketplace.Page | backend/api.php:230-247 | the rows are the listing page (`IsListingPage`): positions `offset` to `offset + limit` of some newest-first arrangement of the matches, so none is repeated and the offset falls where the query puts it; as many matches as remain after the offset, up to the limit; each an active item whose owner exists and which passes the category/type filters that were given; newest first; all matches on a first page with room; a match left off is no older than the first row or no newer than the last, and on the first page no newer than the last |
| StableSort.WindowShape | backend/api.php:240 | a LIMIT/OFFSET window of a permutation has min(limit, what remains after the offset) rows, all members, and is the whole list on a first window with room |
| StableSort.WindowSorted | backend/api.php:240 | a window of a sorted list is sorted |
| StableSort.WindowLeftOff | backend/api.php:240 | an element left off a window of a sorted list ranks no later than its first row or no earlier than its last; with offset 0, no earlier than the last |
| ApiMarketplace.NewestWindow | backend/api.php:240 | the window of the newest-first matches meets every clause of the listing page |
| ApiMarketplace.NewestWindowCut | backend/api.php:240 | the window is cut from a newest-first arrangement of the matches and repeats none of them |
| ApiMarketplace.NewestWindowUnique | backend/api.php:240 | when no two matches share a creation time, two pages that both fit the query are equal |
| ApiMarketplace.ArrangementsEqual | backend/api.php:240 | two newest-first arrangements of matches with distinct creation times are the same sequence |
| ApiMarketplace.ListingPageDetermined | backend/api.php:230-247 | when no two listed items share a creation time, the page `Page` returns is the only one that fits the query |
| StableSort.WindowWithin | backend/api.php:240 | a LIMIT/OFFSET window holds no element more often than the list it is cut from |
| StableSort.SortedPermutationsEqual | backend/api.php:240 | two sorted arrangements of the same elements are equal when no two different elements share a rank |
| ApiMarketplace.NewestLeftOff | backend/api.php:240 | a match left off a window of the newest-first list is no older than its first row or no newer than its last |
| ApiMarketplace.ListItems | backend/api.php:224-252 | never writes; 500 exactly for a negative limit or offset; on 200 the rows are the listing page as `Page` states it, `count` equals their number and each row carries its seller's name |
| ApiMarketplace.NewestIsFirst | backend/api.php:240 | a match strictly newer than every other item heads any first page with room for a row |
| ApiMarketplace.NewestListedFirst | backend/api.php:224-252 | a listed item strictly newer than every other stored item is the first row of the unfiltered listing |
| ApiMarketplace.DefaultListing | backend/api.php:226-240 | a query without parameters is answered 200 with the first 50 rows of the newest-first listing |
| ApiMarketplace.CreateItem | backend/api.php:255-287 | the handler with its INSERT corrected: 401 exactly when the Authorization header is missing or PHP-empty, and then nothing changes; otherwise one active item is appended with the next id, created now, and with the owner id, title, description, category, type and dorm location sent; the price and condition are the text sent, or "0" and "Good" when absent |
| ApiMarketplace.ReservedColumnBreaksInsert | backend/api.php:273 | the INSERT's column list, with `condition` bare, does not prepare; with `condition` quoted it does |
| ApiMarketplace.CreateWith | backend/api.php:255-287 | past the Authorization check, a column list that does not prepare gives 500 with no change; 401 exactly for a missing header |
| ApiMarketplace.CreateItemAsWritten | backend/api.php:255-287 | the handler as written never stores: 401 exactly for a missing or PHP-empty header, 500 otherwise, and the store is unchanged |
| ApiMarketplace.QuotedCreateSucceeds | backend/api.php:273 | with `condition` quoted the handler is `CreateItem`; an authorized create then answers 201 where the code as written answers 500 |
| ApiMarketplace.CreatedItemIsListed | backend/api.php:224-287 | when the clock has moved on since every stored item was created, an item just created, whose owner exists, is the first row of the unfiltered listing |
| ApiMarketplace.CreatePreservesWellFormed | backend/api.php:273-280 | item creation keeps item ids fresh and distinct |
| ApiMessages.MarkRead | backend/api.php:312 | every message from `other` to `user` becomes read with a read time, all others are untouched |
| ApiMessages.ThreadOf | backend/api.php:302-309 | the conversation (`IsThread`): the first 100 of some oldest-first arrangement of its messages, so none is repeated; min(100, its size) messages, all between the two users in either direction, oldest first, all of them when they fit, and none left off older than the last one returned, so past 100 the newest messages are never shown |
| ApiMessages.OldestPrefix | backend/api.php:302 | the first 100 of an oldest-first list have min(100, its length) members, in order, and nothing left off is older than the last one kept |
| ApiMessages.ThreadCut | backend/api.php:302 | the conversation returned is cut from an oldest-first arrangement of its messages and repeats none of them |
| ApiMessages.ThreadUnique | backend/api.php:302 | when no two messages of the conversation share a send time, two conversations that both fit are equal |
| ApiMessages.GetThread | backend/api.php:292-317 | 400 exactly when an id is not positive, with no change; otherwise the rows returned are the conversation as `ThreadOf` states it, read before the update, and the update marks every message from `other` to `user` read, also those past the cap, and nothing else |
| ApiMessages.FetchLeavesNothingUnread | backend/api.php:312 | after fetching, no message from `other` to `user` is unread |
| ApiMessages.SendMessage | backend/api.php:320-348 | 400 exactly for a non-positive sender or receiver or empty content, with no change; otherwise one unread message with the next id is appended, and an item id that is not positive is stored as none |
| ApiMessages.SendThenFetchMarksRead | backend/api.php:292-348 | a message sent is unread until its receiver fetches the conversation with the sender, and then read |
| ApiMessages.GetThreadPreservesWellFormed | backend/api.php:312 | marking read keeps every id |
| ApiMessages.SendPreservesWellFormed | backend/api.php:334-342 | sending keeps message ids fresh and distinct |
| ApiCron.MarkReminded | backend/api.php:376 | exactly the rentals named by view rows get `reminder_sent`; nothing else changes |
| ApiCron.SendReminders | backend/api.php:352-383 | 401 exactly when the key is empty or differs from the configured one, with no change; otherwise the count is the number of view rows and each of their rentals is flagged |
| ApiCron.SweepIdempotent | backend/api.php:366-378 | a second sweep over the same view rows changes nothing more |
| ApiCron.NoKeyNoAccess | backend/api.php:354-360 | without a configured key every call is refused |
| Api.Resolve | backend/api.php:69-352 | the handler found answers exactly the requested (endpoint, action, method); none is found only when no handler has that triple |
| Api.ResolveKeyOf | backend/api.php:69-352 | every handler is reached by its own triple and by no other handler's |
| Api.Dispatch | backend/api.php:69-383 | runs the matched handler: every answer is 200, 201, 400, 401, 403 or 500; an answer other than 200 or 201 leaves the store unchanged; login and the listing never write |
| Api.Handle | backend/api.php:54-387 | OPTIONS is 200 with no body and no change; any other request whose triple has a handler gets exactly that handler's outcome (for marketplace/create the corrected `ApiMarketplace.CreateItem`; see "## Left out"); 404 "Endpoint not found" exactly when nothing matches; statuses are 200, 201, 400, 401, 403, 404 or 500; only 200/201 can change the store, and only for GET or POST |
| Api.ReadOnlyRoutes | backend/api.php:145-252 | login and the items listing never change the store |
| Api.HandlePreservesWellFormed | backend/api.php:54-387 | every request keeps ids positive, distinct and below their counters |
| Marketplace.Selected | js/marketplace.js:206-211 | a product is selected exactly when it is in the list and the filter is 'all' or its category; no more products than the list holds |
| Marketplace.ApplyFiltersAndSort | js/marketplace.js:205-230 | the shown list is a permutation of the products in the chosen category, or of all of them under 'all'. It is ordered by price up or down (missing counts as 0), by date down or by views down (missing counts as 0), and an unknown option keeps list order. Under 'all' the shared list becomes the shown list; under a category it is untouched |
| Marketplace.TiesKeepListOrder | js/marketplace.js:214-227 | products tying under the sort keep their list order |
| Marketplace.PriceDisplay | js/marketplace.js:134-151 | 'free' shows FREE whatever the price; two prices exactly for 'buy' with a truthy original price; a weekly price exactly for 'rent'; 'sell' always shows the plain price |
| Marketplace.CategoryLabel | js/marketplace.js:153-158 | "For Sale" exactly for buy and sell, "For Rent" for rent, "Free" for free; a name `Object.prototype` provides ("toString", "constructor", "__proto__", …) finds that inherited member; no label otherwise |
| Marketplace.TopItems | js/marketplace.js:360-364 | the first three products, or all when fewer |
| Marketplace.FindProduct | js/marketplace.js:333 | a product with the id from the list, and none exactly when no product has it |
| Marketplace.SendMessage | js/marketplace.js:330-352 | with a signed-in user and a known product, exactly one unread message from the user to the seller is appended after the untouched earlier ones and the badge is recounted; otherwise the script throws and nothing is stored |
| Marketplace.SendUnreadCount | js/marketplace.js:345-352 | sending raises the sender's badge by one only when they are the seller |
| Marketplace.ReadMessage | js/marketplace.js:468-478 | only the first message with the id becomes read and every other message is unchanged; an absent id changes nothing; the badge is recounted only when someone is signed in |
| Marketplace.ReadLowersUnread | js/marketplace.js:468-477 | reading lowers the badge by one exactly when the message was unread and addressed to the reader |
| AuthClient.CheckRegistration | js/auth.js:26-41 | the request is sent exactly when the email holds "@" and ".edu" (case-sensitive), the passwords match and the password has at least 6 UTF-16 units; otherwise the first failing check in that order decides |
| AuthClient.VerifyEmail | js/auth.js:191-210 | a code whose length is not 6 is refused with no change; otherwise the first user holding the token argument is verified and every other user is unchanged |
| AuthClient.CodeIsNotChecked | js/auth.js:192-201 | any two six-unit codes have the same effect: the typed code is never compared |
| AuthClient.ResendVerificationCode | js/auth.js:212-220 | only the first user whose id equals the parsed id gets the new token, and nothing else changes; an unparsable or unknown id changes nothing |
| AuthClient.ResendReachesTheUser | js/auth.js:178 | the id passed through the page as decimal text reaches that same user |
| AuthClient.Logout | js/auth.js:141-151 | no user is signed in, the stored current user is gone, and every other stored entry, the API token included, is kept |
| AuthClient.GenerateAvatarColor | js/auth.js:324-327 | the colour is one of the five, the one at `floor(5r)` |
| AuthClient.EveryColorReachable | js/auth.js:324-327 | each of the five colours is drawn for some random value |
| MainUtils.TruncateText | js/main.js:61-63 | a text within the bound is returned unchanged; a longer one becomes its first n code units (none for a negative bound) and "..."; the result always begins with the first min(length, n) units of the text |
| MainUtils.TruncateIdempotent | js/main.js:62 | truncating a result again with the same bound changes nothing |
| ClientServer.EduCheckAgrees | js/auth.js:26 | an email passing the client's case-sensitive ".edu" test passes the server's case-insensitive one |
| ClientServer.UpperCaseDomainOnlyPassesServer | backend/api.php:94 | the converse fails: "a@b.EDU" passes the server and not the client |
| ClientServer.PasswordThresholdAgrees | js/auth.js:38 | 6 UTF-16 units are at least 6 UTF-8 bytes, so the server's byte threshold admits every password the client admits |
| ClientServer.ClientAcceptedPassesServerChecks | js/auth.js:26-41 | a form the client sends is never refused by the server for its domain or its password length |
| ClientServer.PalettesAgree | js/auth.js:325 | the client's avatar colours are the server's palette |

## Left out

- Api.Handle: routes marketplace/create to the corrected handler `ApiMarketplace.CreateItem`, which answers 201 and stores the item, where the code as written answers 500 and stores nothing (`ApiMarketplace.CreateItemAsWritten`, see "## Findings"). So Handle's outcome for that route is the evidently intended one, not the source's.
- Database connection failure, query errors other than a negative LIMIT/OFFSET and the item INSERT's reserved column, and a failing INSERT or UPDATE (the 500 branches at backend/api.php:47-50, 139-140, 215-216, 283-284, 344-345) are not modelled: the store is always reachable and every other write succeeds.
- ApiMarketplace.ReservedWords: holds only the MySQL reserved words that name this schema's columns or sit next to them, not the whole list.
- `real_escape_string` is taken as the identity, so quoting and SQL injection are outside the model. In the source, registration binds the escaped text (backend/api.php:74-76, 127), so a name or email holding a quote, a backslash or another escaped character is stored with an extra backslash, while the login lookup and the duplicate check (backend/api.php:155, 108) compare the column with the unescaped text. For such a personal email the user can never log in and a second registration is not refused, so ApiAuth.RegisterVerifyLogin and ApiAuth.RegisterTwiceConflicts hold only for text that escaping leaves unchanged.
- MySQL's case-insensitive collation is not modelled: emails, tokens and categories compare exactly. (The cron key is compared by PHP's `!==`, which is exact in the source too.)
- Numeric.LeadingInt: reads only ASCII white space and decimal digits. It ignores `intval`'s exponent forms and 64-bit saturation, and `parseInt`'s "0x" prefix and Unicode white space.
- ApiMarketplace.CreateItem: states the stored price as the text sent, not `floatval` of it, because floating point is not modelled.
- Store.HashPassword: an ideal hash, so bcrypt's 72-byte truncation and hash collisions are left out.
- The login token is kept as its fields; its base64 and JSON encoding is left out.
- The definition of `upcoming_reminders_view` is not part of this model. Its rows are an input, so whether a second sweep sends reminders again is left open. Only the store-level idempotence is stated.
- Email sending in the reminder job is a commented-out call in the source and is not modelled.
- The order of rows that tie under SQL `ORDER BY` is unspecified in MySQL. The model's functions keep insertion order, while the listing and conversation contracts allow any arrangement of tied rows.
- `FILTER_VALIDATE_EMAIL` is an uninterpreted predicate carried in the request context.
- `random_bytes`, `array_rand` and `Math.random` are parameters. Only the token's length and the palette membership are stated.
- JSON decoding of the request body is left out: the body is a map from field to text.
- HTTP headers and CORS headers are left out.
- Marketplace.ApplyFiltersAndSort: prices and view counts are integers. `posted_date` is an integer key, so date parsing, invalid dates and NaN comparator results are not modelled.
- Marketplace.CategoryLabel: an inherited `Object.prototype` member is returned by name; how the card then prints it (a function's source text, or "[object Object]" for `__proto__`) is not modelled.
- DOM rendering, modals, alerts, `fetch` and the response handling of the forms are left out.
- `localStorage` is plain state: the local lists are parameters and results.
- `generateToken` is left out; the new token is a parameter of AuthClient.ResendVerificationCode.
- Lone surrogates are not representable in the model's strings, which hold Unicode scalar values only. `MainUtils.TruncateText` works on code units and so can produce half a pair.

## Findings

| source | as written | input that shows it | evidently intended | confidence | as-written member | corrected member |
|---|---|---|---|---|---|---|
| backend/api.php:273 | the item INSERT lists the column `condition` unquoted; `condition` is a MySQL reserved word, so `prepare` fails and the request ends in 500 (an uncaught `mysqli_sql_exception`, or `bind_param` on `false`) | any POST marketplace/create with a non-empty `Authorization` header; ApiMarketplace.QuotedCreateSucceeds states the 500 against the corrected 201 | quote the column (`` `condition` ``) so the item is stored and 201 is answered | not executed; read from the SQL text | ApiMarketplace.CreateItemAsWritten | ApiMarketplace.CreateItem |

=== FILE: api.dfy ===
/** The request dispatcher: one handler per (endpoint, action, method)
    triple, matched exactly; CORS preflight answered before anything else;
    everything unmatched is 404. */
module Api {
  import opened Wrappers
  import opened Store
  import opened ApiTypes
  import ApiAuth
  import ApiMarketplace
  import ApiMessages
  import ApiCron

  datatype Route = Register | Login | Verify | ListItems | CreateItem | GetThread | SendMessage | SendReminders

  datatype RouteKey = RouteKey(endpoint: string, action: string, httpMethod: string)

  /** The triple each handler answers to. */
  function KeyOf(r: Route): RouteKey {
    match r
    case Register => RouteKey("auth", "register", "POST")
    case Login => RouteKey("auth", "login", "POST")
    case Verify => RouteKey("auth", "verify", "POST")
    case ListItems => RouteKey("marketplace", "items", "GET")
    case CreateItem => RouteKey("marketplace", "create", "POST")
    case GetThread => RouteKey("messages", "get", "GET")
    case SendMessage => RouteKey("messages", "send", "POST")
    case SendReminders => RouteKey("cron", "send_reminders", "GET")
  }

  /** The handler whose triple is exactly `key`, if any. */
  function Resolve(key: RouteKey): (r: Option<Route>)
    ensures r.Some? ==> KeyOf(r.value) == key
    ensures r.None? ==> forall h: Route :: KeyOf(h) != key
  {
    if key == KeyOf(Register) then Some(Register)
    else if key == KeyOf(Login) then Some(Login)
    else if key == KeyOf(Verify) then Some(Verify)
    else if key == KeyOf(ListItems) then Some(ListItems)
    else if key == KeyOf(CreateItem) then Some(CreateItem)
    else if key == KeyOf(GetThread) then Some(GetThread)
    else if key == KeyOf(SendMessage) then Some(SendMessage)
    else if key == KeyOf(SendReminders) then Some(SendReminders)
    else None
  }

  /** No two handlers share a triple, so every handler is reached by its own. */
  lemma ResolveKeyOf(r: Route)
    ensures Resolve(KeyOf(r)) == Some(r)
  {
  }

  /** The triple a request asks for; missing query parameters read as "". */
  function RequestKey(req: Request): RouteKey {
    RouteKey(Lookup(req.query, "endpoint", ""), Lookup(req.query, "action", ""), req.httpMethod)
  }

  /** Runs the handler `r`. Handlers answer with the statuses below; one
      that does not succeed leaves the store as it was, and login and the
      listing never write. */
  function Dispatch(r: Route, req: Request, db: Db, ctx: Context): (o: Outcome)
    requires ValidContext(ctx)
    ensures o.status in {200, 201, 400, 401, 403, 500}
    ensures !(o.status in {200, 201}) ==> o.db == db
    ensures r in {Login, ListItems} ==> o.db == db
  {
    match r
    case Register => ApiAuth.Register(req.body, db, ctx)
    case Login => ApiAuth.Login(req.body, db, ctx)
    case Verify => ApiAuth.Verify(req.body, db, ctx)
    case ListItems => ApiMarketplace.ListItems(req.query, db)
    case CreateItem => ApiMarketplace.CreateItem(req.body, req.authorization, db, ctx)
    case GetThread => ApiMessages.GetThread(req.query, db, ctx)
    case SendMessage => ApiMessages.SendMessage(req.body, db, ctx)
    case SendReminders => ApiCron.SendReminders(req.query, db, ctx)
  }

  /** One request. OPTIONS is answered 200 with no body whatever it asks
      for; any other request gets the answer of the handler of its exact
      triple, and 404 means exactly that there is none. A request that does
      not succeed leaves the store as it was. */
  function Handle(req: Request, db: Db, ctx: Context): (o: Outcome)
    requires ValidContext(ctx)
    ensures req.httpMethod == "OPTIONS" ==> o == Outcome(200, NoBody, db)
    ensures o.status == 404 <==> req.httpMethod != "OPTIONS" && Resolve(RequestKey(req)).None?
    ensures o.status == 404 ==> o == Reject(404, EndpointNotFound, db)
    ensures (req.httpMethod != "OPTIONS" && Resolve(RequestKey(req)).Some?)
              ==> o == Dispatch(Resolve(RequestKey(req)).value, req, db, ctx)
    ensures o.status in {200, 201, 400, 401, 403, 404, 500}
    ensures !(o.status in {200, 201}) ==> o.db == db
    ensures o.db != db ==> req.httpMethod in {"GET", "POST"}
  {
    if req.httpMethod == "OPTIONS" then Outcome(200, NoBody, db)
    else
      match Resolve(RequestKey(req))
      case None => Reject(404, EndpointNotFound, db)
      case Some(r) => Dispatch(r, req, db, ctx)
  }

  /** Only registration, verification, item creation, fetching a
      conversation, sending a message and the reminder job write. */
  lemma {:induction false} ReadOnlyRoutes(req: Request, db: Db, ctx: Context)
    requires ValidContext(ctx)
    requires Resolve(RequestKey(req)) in {Some(Login), Some(ListItems)}
    ensures Handle(req, db, ctx).db == db
  {
  }

  /** Every handler keeps ids positive, below their counters and distinct. */
  lemma {:induction false} HandlePreservesWellFormed(req: Request, db: Db, ctx: Context)
    requires ValidContext(ctx)
    requires WellFormed(db)
    ensures WellFormed(Handle(req, db, ctx).db)
  {
    if req.httpMethod != "OPTIONS" && Resolve(RequestKey(req)).Some? {
      match Resolve(RequestKey(req)).value
      case Register => ApiAuth.RegisterPreservesWellFormed(req.body, db, ctx);
      case Verify => ApiAuth.VerifyPreservesWellFormed(req.body, db, ctx);
      case CreateItem => ApiMarketplace.CreatePreservesWellFormed(req.body, req.authorization, db, ctx);
      case GetThread => ApiMessages.GetThreadPreservesWellFormed(req.query, db, ctx);
      case SendMessage => ApiMessages.SendPreservesWellFormed(req.body, db, ctx);
      case _ =>
    }
  }
}

=== FILE: api_auth.dfy ===
/** The AUTHENTICATION section of the API: register, login and email
    verification. `real_escape_string` is taken as the identity. */
module ApiAuth {
  import opened Wrappers
  import opened Text
  import opened Unicode
  import opened Hex
  import opened Store
  import opened ApiTypes

  function PersonalEmail(input: map<string, string>): string {
    Lookup(input, "personal_email", "")
  }

  function UniEmail(input: map<string, string>): string {
    Lookup(input, "uni_email", "")
  }

  function Password(input: map<string, string>): string {
    Lookup(input, "password", "")
  }

  /** Some registration field is missing or PHP-empty. */
  predicate MissingField(input: map<string, string>) {
    || PhpEmpty(Lookup(input, "name", ""))
    || PhpEmpty(Lookup(input, "personal_email", ""))
    || PhpEmpty(Lookup(input, "uni_email", ""))
    || PhpEmpty(Lookup(input, "password", ""))
  }

  /** The four input checks of registration all pass. */
  predicate RegistrationValid(input: map<string, string>, ctx: Context) {
    var uni := Lookup(input, "uni_email", "");
    && !MissingField(input)
    && ctx.isEmail(uni)
    && ContainsIgnoreCase(uni, ".edu")
    && Utf8Length(Lookup(input, "password", "")) >= 6
  }

  /** An existing user has this personal email as personal email, or this
      university email as university email. */
  predicate EmailTaken(users: seq<User>, personalEmail: string, uniEmail: string) {
    exists k | 0 <= k < |users| :: users[k].personalEmail == personalEmail || users[k].uniEmail == uniEmail
  }

  /** The user row registration inserts. */
  function NewUser(input: map<string, string>, db: Db, ctx: Context): User
    requires ValidContext(ctx)
  {
    User(
      id := db.nextUserId,
      name := Lookup(input, "name", ""),
      personalEmail := Lookup(input, "personal_email", ""),
      uniEmail := Lookup(input, "uni_email", ""),
      passwordHash := HashPassword(Lookup(input, "password", ""), ctx.salt),
      isVerified := false,
      verificationToken := Bin2Hex(ctx.randomBytes),
      verificationDate := None,
      roleId := ctx.defaultRoleId,
      avatarColor := AvatarPalette[ctx.avatarPick])
  }

  /** POST auth/register. The checks run in order and the first that fails
      answers 400; a request that passes them all and whose emails are free
      appends exactly one unverified user carrying a fresh 32-digit token. */
  function Register(input: map<string, string>, db: Db, ctx: Context): (o: Outcome)
    requires ValidContext(ctx)
    ensures o.status == 201 || o.status == 400
    ensures o.status == 400 ==> o.db == db
    ensures MissingField(input) ==> o == Reject(400, MissingFields, db)
    ensures (!MissingField(input) && !ctx.isEmail(UniEmail(input)))
              ==> o == Reject(400, InvalidEmail, db)
    ensures (!MissingField(input) && ctx.isEmail(UniEmail(input)) && !ContainsIgnoreCase(UniEmail(input), ".edu"))
              ==> o == Reject(400, NeedsEduDomain, db)
    ensures (!MissingField(input) && ctx.isEmail(UniEmail(input)) && ContainsIgnoreCase(UniEmail(input), ".edu")
             && Utf8Length(Password(input)) < 6)
              ==> o == Reject(400, ShortPassword, db)
    ensures (RegistrationValid(input, ctx) && EmailTaken(db.users, PersonalEmail(input), UniEmail(input)))
              ==> o == Reject(400, EmailExists, db)
    ensures o.status == 201 <==>
              RegistrationValid(input, ctx)
              && !EmailTaken(db.users, Lookup(input, "personal_email", ""), Lookup(input, "uni_email", ""))
    ensures o.status == 201 ==>
              && |o.db.users| == |db.users| + 1
              && o.db.users[..|db.users|] == db.users
              && OnlyUsersChanged(db, o.db)
              && o.db.nextUserId == db.nextUserId + 1
              && var u := o.db.users[|db.users|];
              && u.id == db.nextUserId
              && u.name == Lookup(input, "name", "")
              && u.personalEmail == Lookup(input, "personal_email", "")
              && u.uniEmail == Lookup(input, "uni_email", "")
              && PasswordVerify(Lookup(input, "password", ""), u.passwordHash)
              && !u.isVerified
              && |u.verificationToken| == 32
              && u.avatarColor in AvatarPalette
              && o.body == Registered(u.id, u.verificationToken, u.uniEmail)
  {
    var uni := Lookup(input, "uni_email", "");
    if MissingField(input) then Reject(400, MissingFields, db)
    else if !ctx.isEmail(uni) then Reject(400, InvalidEmail, db)
    else if !ContainsIgnoreCase(uni, ".edu") then Reject(400, NeedsEduDomain, db)
    else if Utf8Length(Lookup(input, "password", "")) < 6 then Reject(400, ShortPassword, db)
    else if EmailTaken(db.users, Lookup(input, "personal_email", ""), uni) then Reject(400, EmailExists, db)
    else
      var u := NewUser(input, db, ctx);
      var users' := db.users + [u];
      assert users'[..|db.users|] == db.users;
      Outcome(201, Registered(u.id, u.verificationToken, u.uniEmail),
              db.(users := users', nextUserId := db.nextUserId + 1))
  }

  /** POST auth/login. Lookup is by personal email only. An unknown email
      and a wrong password give the same 401; the verified flag is looked at
      only after the password matched. The store never changes. */
  function Login(input: map<string, string>, db: Db, ctx: Context): (o: Outcome)
    ensures o.db == db
    ensures o.status in {200, 400, 401, 403}
    ensures o.status == 400 <==>
              PhpEmpty(Lookup(input, "email", "")) || PhpEmpty(Lookup(input, "password", ""))
    ensures o.status == 401 ==> o.body == ErrorBody(InvalidCredentials)
    ensures o.status == 401 <==>
              && !PhpEmpty(Lookup(input, "email", "")) && !PhpEmpty(Lookup(input, "password", ""))
              && match FindByPersonalEmail(db.users, Lookup(input, "email", ""))
                 case None => true
                 case Some(u) => !PasswordVerify(Lookup(input, "password", ""), u.passwordHash)
    ensures o.status == 403 <==>
              && !PhpEmpty(Lookup(input, "email", "")) && !PhpEmpty(Lookup(input, "password", ""))
              && match FindByPersonalEmail(db.users, Lookup(input, "email", ""))
                 case None => false
                 case Some(u) => PasswordVerify(Lookup(input, "password", ""), u.passwordHash) && !u.isVerified
    ensures o.status == 200 ==>
              && FindByPersonalEmail(db.users, Lookup(input, "email", "")).Some?
              && var u := FindByPersonalEmail(db.users, Lookup(input, "email", "")).value;
              && PasswordVerify(Lookup(input, "password", ""), u.passwordHash)
              && u.isVerified
              && o.body == LoggedIn(SessionToken(u.id, u.personalEmail, ctx.now), ProfileOf(u))
    ensures o.status == 403 ==>
              && FindByPersonalEmail(db.users, Lookup(input, "email", "")).Some?
              && var u := FindByPersonalEmail(db.users, Lookup(input, "email", "")).value;
              && PasswordVerify(Lookup(input, "password", ""), u.passwordHash)
              && !u.isVerified
  {
    var email := Lookup(input, "email", "");
    var password := Lookup(input, "password", "");
    if PhpEmpty(email) || PhpEmpty(password) then Reject(400, MissingCredentials, db)
    else
      match FindByPersonalEmail(db.users, email)
      case None => Reject(401, InvalidCredentials, db)
      case Some(u) =>
        if !PasswordVerify(password, u.passwordHash) then Reject(401, InvalidCredentials, db)
        else if !u.isVerified then Reject(403, NotVerified, db)
        else Outcome(200, LoggedIn(SessionToken(u.id, u.personalEmail, ctx.now), ProfileOf(u)), db)
  }

  /** An unknown email and a known email with the wrong password get the
      same answer, and so does an unverified user with the wrong password:
      the response does not tell them apart. */
  lemma LoginDoesNotLeak(input: map<string, string>, db: Db, ctx: Context)
    requires !PhpEmpty(Lookup(input, "email", "")) && !PhpEmpty(Lookup(input, "password", ""))
    requires match FindByPersonalEmail(db.users, Lookup(input, "email", ""))
             case None => true
             case Some(u) => !PasswordVerify(Lookup(input, "password", ""), u.passwordHash)
    ensures Login(input, db, ctx) == Reject(401, InvalidCredentials, db)
  {
  }

  /** The UPDATE changes a matching row unless it is already verified with
      the same verification time; MySQL counts only changed rows. */
  predicate VerifyChangesRow(u: User, token: string, now: Timestamp) {
    u.verificationToken == token && (!u.isVerified || u.verificationDate != Some(now))
  }

  /** Every user whose token is `token` marked verified at `now`. */
  function MarkVerified(users: seq<User>, token: string, now: Timestamp): (r: seq<User>)
    ensures |r| == |users|
    ensures forall k :: 0 <= k < |users| && users[k].verificationToken == token
              ==> r[k] == users[k].(isVerified := true, verificationDate := Some(now))
    ensures forall k :: 0 <= k < |users| && users[k].verificationToken != token ==> r[k] == users[k]
  {
    seq(|users|, k requires 0 <= k < |users| =>
      if users[k].verificationToken == token
      then users[k].(isVerified := true, verificationDate := Some(now))
      else users[k])
  }

  /** POST auth/verify. Every user holding the token becomes verified at
      the current time, and every other user is kept; the answer is 400
      exactly when no row changed, and then nothing changed. The token is
      not cleared, so it keeps matching afterwards. */
  function Verify(input: map<string, string>, db: Db, ctx: Context): (o: Outcome)
    ensures o.status == 200 || o.status == 400
    ensures o.status == 200 <==>
              exists k :: 0 <= k < |db.users| && VerifyChangesRow(db.users[k], Lookup(input, "token", ""), ctx.now)
    ensures o.status == 400 ==> o == Reject(400, InvalidToken, db)
    ensures o.status == 200 ==> o.body == EmailVerified
    ensures o.db.users == MarkVerified(db.users, Lookup(input, "token", ""), ctx.now)
    ensures OnlyUsersChanged(db, o.db) && o.db.nextUserId == db.nextUserId
    ensures |o.db.users| == |db.users|
    ensures forall k :: 0 <= k < |db.users| ==>
              && o.db.users[k].verificationToken == db.users[k].verificationToken
              && o.db.users[k].id == db.users[k].id
              && o.db.users[k].personalEmail == db.users[k].personalEmail
              && o.db.users[k].passwordHash == db.users[k].passwordHash
              && (db.users[k].verificationToken == Lookup(input, "token", "") ==>
                    o.db.users[k] == db.users[k].(isVerified := true, verificationDate := Some(ctx.now)))
              && (db.users[k].verificationToken != Lookup(input, "token", "") ==> o.db.users[k] == db.users[k])
  {
    var token := Lookup(input, "token", "");
    var users' := MarkVerified(db.users, token, ctx.now);
    if exists k | 0 <= k < |db.users| :: VerifyChangesRow(db.users[k], token, ctx.now) then
      Outcome(200, EmailVerified, db.(users := users'))
    else
      assert users' == db.users;
      Reject(400, InvalidToken, db)
  }

  /** A user who has just registered is refused with 403 until verified,
      and after redeeming the token returned by registration can log in with
      the registered password and gets their own profile back. */
  lemma {:induction false} RegisterVerifyLogin(input: map<string, string>, db: Db, ctx: Context, later: Context)
    requires ValidContext(ctx)
    requires Register(input, db, ctx).status == 201
    ensures var db1 := Register(input, db, ctx).db;
            var creds := map["email" := Lookup(input, "personal_email", ""), "password" := Lookup(input, "password", "")];
            var u := db1.users[|db.users|];
            && Login(creds, db1, later).status == 403
            && var v := Verify(map["token" := u.verificationToken], db1, later);
            && v.status == 200
            && Login(creds, v.db, later).status == 200
            && Login(creds, v.db, later).body.user == ProfileOf(u)
  {
    var r := Register(input, db, ctx);
    var db1 := r.db;
    var u := db1.users[|db.users|];
    var pe := Lookup(input, "personal_email", "");
    var creds := map["email" := pe, "password" := Lookup(input, "password", "")];
    assert Lookup(creds, "email", "") == pe;
    assert Lookup(creds, "password", "") == Lookup(input, "password", "");
    assert !EmailTaken(db.users, pe, Lookup(input, "uni_email", ""));
    assert forall k :: 0 <= k < |db.users| ==> db1.users[k].personalEmail != pe by {
      forall k | 0 <= k < |db.users| ensures db1.users[k].personalEmail != pe {
        assert db1.users[k] == db.users[k];
      }
    }
    FindAfterFreshEmail(db1.users, |db.users|, pe);
    assert FindByPersonalEmail(db1.users, pe) == Some(u);
    VerifyThenFind(db1, |db.users|, pe, later);
    assert ProfileOf(u.(isVerified := true, verificationDate := Some(later.now))) == ProfileOf(u);
  }

  /** Redeeming the token of an unverified user, the first with a personal
      email, verifies that user, and the login lookup then finds them
      verified. */
  lemma VerifyThenFind(db: Db, n: nat, email: string, later: Context)
    requires n < |db.users| && db.users[n].personalEmail == email && !db.users[n].isVerified
    requires forall k :: 0 <= k < n ==> db.users[k].personalEmail != email
    ensures var v := Verify(map["token" := db.users[n].verificationToken], db, later);
            && v.status == 200
            && FindByPersonalEmail(v.db.users, email)
               == Some(db.users[n].(isVerified := true, verificationDate := Some(later.now)))
  {
    var u := db.users[n];
    var tokenInput := map["token" := u.verificationToken];
    assert Lookup(tokenInput, "token", "") == u.verificationToken;
    assert VerifyChangesRow(db.users[n], u.verificationToken, later.now);
    var users' := MarkVerified(db.users, u.verificationToken, later.now);
    var v := Verify(tokenInput, db, later);
    assert v.db.users == users';
    assert forall k :: 0 <= k < n ==> users'[k].personalEmail != email;
    FindAfterFreshEmail(users', n, email);
  }

  /** The login lookup finds the user at `n` when nobody before it has that
      personal email. */
  lemma {:induction false} FindAfterFreshEmail(users: seq<User>, n: nat, email: string)
    requires n < |users| && users[n].personalEmail == email
    requires forall k :: 0 <= k < n ==> users[k].personalEmail != email
    ensures FindByPersonalEmail(users, email) == Some(users[n])
  {
    if n > 0 {
      assert users[0].personalEmail != email;
      FindAfterFreshEmail(users[1..], n - 1, email);
    }
  }

  /** Registering again with a personal or university email already in use
      is refused, whatever else the second request says. */
  lemma RegisterTwiceConflicts(first: map<string, string>, second: map<string, string>, db: Db, ctx: Context, ctx2: Context)
    requires ValidContext(ctx) && ValidContext(ctx2)
    requires Register(first, db, ctx).status == 201
    requires RegistrationValid(second, ctx2)
    requires Lookup(second, "personal_email", "") == Lookup(first, "personal_email", "")
             || Lookup(second, "uni_email", "") == Lookup(first, "uni_email", "")
    ensures Register(second, Register(first, db, ctx).db, ctx2) == Reject(400, EmailExists, Register(first, db, ctx).db)
  {
    var db1 := Register(first, db, ctx).db;
    var k := |db.users|;
    assert db1.users[k].personalEmail == Lookup(first, "personal_email", "");
    assert db1.users[k].uniEmail == Lookup(first, "uni_email", "");
    assert EmailTaken(db1.users, Lookup(second, "personal_email", ""), Lookup(second, "uni_email", ""));
  }

  /** Registration hands out the next user id. */
  lemma RegisterPreservesWellFormed(input: map<string, string>, db: Db, ctx: Context)
    requires ValidContext(ctx)
    requires WellFormed(db)
    ensures WellFormed(Register(input, db, ctx).db)
  {
    var r := Register(input, db, ctx);
    if r.status == 201 {
      AppendUserFresh(db.users, db.nextUserId, NewUser(input, db, ctx));
    }
  }

  /** Verification keeps every id. */
  lemma VerifyPreservesWellFormed(input: map<string, string>, db: Db, ctx: Context)
    requires WellFormed(db)
    ensures WellFormed(Verify(input, db, ctx).db)
  {
    var marked := MarkVerified(db.users, Lookup(input, "token", ""), ctx.now);
    assert forall i :: 0 <= i < |db.users| ==> marked[i].id == db.users[i].id;
    SameUserIds(db.users, marked, db.nextUserId);
  }
}

=== FILE: api_cron.dfy ===
/** The RENTAL REMINDERS section of the API: the job a scheduler calls to
    flag rentals that are due. Sending the e-mail itself is a no-op in the
    source and is not modelled. */
module ApiCron {
  import opened Wrappers
  import opened Text
  import opened Store
  import opened ApiTypes

  /** The rentals named by the reminder view's rows. */
  function ViewRentalIds(view: seq<ReminderRow>): set<int> {
    set k | 0 <= k < |view| :: view[k].rentalId
  }

  /** The `api_key` parameter is non-empty and equal to the configured key;
      when no key is configured nothing matches. */
  predicate CronAuthorized(query: map<string, string>, cronKey: Option<string>) {
    var key := Lookup(query, "api_key", "");
    !PhpEmpty(key) && cronKey == Some(key)
  }

  /** Every rental in `ids` flagged as reminded. */
  function MarkReminded(rentals: seq<Rental>, ids: set<int>): (r: seq<Rental>)
    ensures |r| == |rentals|
    ensures forall k :: 0 <= k < |rentals| ==>
              r[k].id == rentals[k].id
              && r[k].reminderSent == (rentals[k].reminderSent || rentals[k].id in ids)
  {
    seq(|rentals|, k requires 0 <= k < |rentals| =>
      if rentals[k].id in ids then rentals[k].(reminderSent := true) else rentals[k])
  }

  /** GET cron/send_reminders. Without the right key the answer is 401 and
      nothing changes. With it, every rental named by a row of the view is
      flagged as reminded, and the count reported is the number of rows. */
  function SendReminders(query: map<string, string>, db: Db, ctx: Context): (o: Outcome)
    ensures o.status == 200 || o.status == 401
    ensures o.status == 401 <==> !CronAuthorized(query, ctx.cronKey)
    ensures o.status == 401 ==> o == Reject(401, Unauthorized, db)
    ensures o.status == 200 ==>
              && o.body == RemindersSent(|ctx.reminderView|)
              && o.db == db.(rentals := o.db.rentals)
              && |o.db.rentals| == |db.rentals|
              && (forall k :: 0 <= k < |db.rentals| ==>
                    && o.db.rentals[k].id == db.rentals[k].id
                    && o.db.rentals[k].reminderSent
                       == (db.rentals[k].reminderSent || db.rentals[k].id in ViewRentalIds(ctx.reminderView)))
  {
    if !CronAuthorized(query, ctx.cronKey) then Reject(401, Unauthorized, db)
    else
      Outcome(200, RemindersSent(|ctx.reminderView|),
              db.(rentals := MarkReminded(db.rentals, ViewRentalIds(ctx.reminderView))))
  }

  /** Running the job again over the same view rows changes nothing more. */
  lemma SweepIdempotent(query: map<string, string>, db: Db, ctx: Context)
    requires CronAuthorized(query, ctx.cronKey)
    ensures var once := SendReminders(query, db, ctx).db;
            SendReminders(query, once, ctx).db == once
  {
    var once := SendReminders(query, db, ctx).db;
    var twice := SendReminders(query, once, ctx).db;
    assert twice.rentals == once.rentals;
  }

  /** Without a configured key every call is refused. */
  lemma NoKeyNoAccess(query: map<string, string>, db: Db, ctx: Context)
    requires ctx.cronKey.None?
    ensures SendReminders(query, db, ctx) == Reject(401, Unauthorized, db)
  {
  }
}

=== FILE: api_marketplace.dfy ===
/** The MARKETPLACE section of the API: listing active items and posting a
    new one. */
module ApiMarketplace {
  import opened Wrappers
  import opened Seqs
  import opened StableSort
  import opened Text
  import opened Numeric
  import opened Store
  import opened ApiTypes

  /** `min(intval($_GET['limit'] ?? 50), 100)`: capped above, not below. */
  function PageLimit(query: map<string, string>): (n: int)
    ensures n <= 100
    ensures "limit" !in query ==> n == 50
    ensures "limit" in query ==> n == if Intval(query["limit"]) < 100 then Intval(query["limit"]) else 100
  {
    var n := IntParam(query, "limit", 50);
    if n < 100 then n else 100
  }

  function PageOffset(query: map<string, string>): int {
    IntParam(query, "offset", 0)
  }

  /** The WHERE clause and join of the listing query: an active item whose
      owner exists, of the requested category and type when those are not
      PHP-empty. */
  function ListedBy(users: seq<User>, category: string, itemType: string): Item -> bool {
    (i: Item) => && i.isActive
         && FindUser(users, i.ownerId).Some?
         && (PhpEmpty(category) || i.category == category)
         && (PhpEmpty(itemType) || i.itemType == itemType)
  }

  function Listed(query: map<string, string>, users: seq<User>): Item -> bool {
    ListedBy(users, Lookup(query, "category", ""), Lookup(query, "type", ""))
  }

  /** `ORDER BY created_at DESC` as an ascending rank. */
  function NewestFirst(i: Item): int {
    -i.createdAt
  }

  /** The items of the listing rows. */
  function RowItems(rows: seq<ItemRow>): (r: seq<Item>)
    ensures |r| == |rows| && forall k :: 0 <= k < |rows| ==> r[k] == rows[k].item
  {
    seq(|rows|, k requires 0 <= k < |rows| => rows[k].item)
  }

  /** Each item with its owner's name. */
  function WithSellers(page: seq<Item>, users: seq<User>): (rows: seq<ItemRow>)
    requires forall k :: 0 <= k < |page| ==> FindUser(users, page[k].ownerId).Some?
    ensures RowItems(rows) == page
    ensures forall k :: 0 <= k < |rows| ==> rows[k].sellerName == FindUser(users, page[k].ownerId).value.name
  {
    var rows := seq(|page|, k requires 0 <= k < |page| => ItemRow(page[k], FindUser(users, page[k].ownerId).value.name));
    assert RowItems(rows) == page;
    rows
  }

  /** The matches arranged newest first: any order `ORDER BY created_at
      DESC` may produce, which differ only among items created at the
      same time. */
  ghost predicate NewestArrangement(items: seq<Item>, keep: Item -> bool, s: seq<Item>) {
    multiset(s) == multiset(Filter(items, keep)) && SortedBy(s, NewestFirst)
  }

  /** What `ORDER BY created_at DESC LIMIT limit OFFSET offset` returns
      over the items that pass `keep`: the rows at positions `offset` to
      `offset + limit` of a newest-first arrangement of the matches. So
      there are as many as remain after the offset, up to the limit, each a
      match and none shown more often than it matches, newest first, and all
      of them on a first page that has room. A match left off the page is
      no older than its first row (it came before the window) or no newer
      than its last (it came after); on the first page, it is no newer than
      the last row. */
  ghost predicate IsNewestWindow(items: seq<Item>, keep: Item -> bool, offset: int, limit: int, page: seq<Item>) {
    && NewestRows(items, keep, offset, limit, page)
    && NewestLeftOffBounds(items, keep, offset, page)
    && CutFromNewest(items, keep, offset, limit, page)
  }

  /** The page's size, membership and order, and a whole first page. */
  ghost predicate NewestRows(items: seq<Item>, keep: Item -> bool, offset: int, limit: int, page: seq<Item>) {
    && |page| == (if Count(items, keep) <= offset then 0
                  else if limit < Count(items, keep) - offset then limit
                  else Count(items, keep) - offset)
    && (forall k :: 0 <= k < |page| ==> page[k] in items && keep(page[k]))
    && (forall i, j :: 0 <= i < j < |page| ==> page[i].createdAt >= page[j].createdAt)
    && ((offset == 0 && Count(items, keep) <= limit) ==> multiset(page) == multiset(Filter(items, keep)))
  }

  /** Where the matches left off the page stand against its rows. */
  ghost predicate NewestLeftOffBounds(items: seq<Item>, keep: Item -> bool, offset: int, page: seq<Item>) {
    && (|page| > 0 ==> forall x :: x in Filter(items, keep) && x !in page ==>
          x.createdAt >= page[0].createdAt || x.createdAt <= page[|page| - 1].createdAt)
    && (offset == 0 && |page| > 0 ==> forall x :: x in Filter(items, keep) && x !in page ==>
          x.createdAt <= page[|page| - 1].createdAt)
  }

  /** The page is a window of a newest-first arrangement of the matches. */
  ghost predicate CutFromNewest(items: seq<Item>, keep: Item -> bool, offset: int, limit: int, page: seq<Item>) {
    && multiset(page) <= multiset(Filter(items, keep))
    && (offset >= 0 ==> exists s :: NewestArrangement(items, keep, s) && page == Take(Drop(s, offset), limit))
  }

  /** The listing page for a query: the newest-first window over the
      listed items. */
  ghost predicate IsListingPage(query: map<string, string>, db: Db, page: seq<Item>) {
    IsNewestWindow(db.items, Listed(query, db.users), PageOffset(query), PageLimit(query), page)
  }

  /** The requested page of matching items, newest first. */
  function Page(query: map<string, string>, db: Db): (page: seq<Item>)
    requires PageLimit(query) >= 0 && PageOffset(query) >= 0
    ensures IsListingPage(query, db, page)
  {
    NewestWindow(db.items, Listed(query, db.users), PageOffset(query), PageLimit(query));
    Take(Drop(Sort(Filter(db.items, Listed(query, db.users)), NewestFirst), PageOffset(query)), PageLimit(query))
  }

  /** The window of the newest-first matches is what the query returns. */
  lemma NewestWindow(items: seq<Item>, keep: Item -> bool, offset: nat, limit: nat)
    ensures IsNewestWindow(items, keep, offset, limit, Take(Drop(Sort(Filter(items, keep), NewestFirst), offset), limit))
  {
    NewestWindowRows(items, keep, offset, limit);
    NewestLeftOff(Filter(items, keep), Sort(Filter(items, keep), NewestFirst), offset, limit);
    NewestWindowCut(items, keep, offset, limit);
  }

  /** The window's size, membership and order. */
  lemma NewestWindowRows(items: seq<Item>, keep: Item -> bool, offset: nat, limit: nat)
    ensures NewestRows(items, keep, offset, limit, Take(Drop(Sort(Filter(items, keep), NewestFirst), offset), limit))
  {
    var matching := Filter(items, keep);
    var sorted := Sort(matching, NewestFirst);
    var page := Take(Drop(sorted, offset), limit);
    WindowShape(matching, sorted, offset, limit);
    PageMembers(page, items, keep);
    NewestWindowOrder(sorted, offset, limit);
  }

  /** The window is cut from the sort's own newest-first arrangement. */
  lemma NewestWindowCut(items: seq<Item>, keep: Item -> bool, offset: nat, limit: nat)
    ensures CutFromNewest(items, keep, offset, limit, Take(Drop(Sort(Filter(items, keep), NewestFirst), offset), limit))
  {
    var sorted := Sort(Filter(items, keep), NewestFirst);
    WindowWithin(sorted, offset, limit);
    assert NewestArrangement(items, keep, sorted);
  }

  /** When no two matches were created at the same time, the page is
      determined: two pages that both fit the query are the same. */
  lemma NewestWindowUnique(items: seq<Item>, keep: Item -> bool, offset: nat, limit: int, p: seq<Item>, q: seq<Item>)
    requires IsNewestWindow(items, keep, offset, limit, p)
    requires IsNewestWindow(items, keep, offset, limit, q)
    requires forall x, y :: x in Filter(items, keep) && y in Filter(items, keep) && x.createdAt == y.createdAt ==> x == y
    ensures p == q
  {
    var s :| NewestArrangement(items, keep, s) && p == Take(Drop(s, offset), limit);
    var t :| NewestArrangement(items, keep, t) && q == Take(Drop(t, offset), limit);
    ArrangementsEqual(items, keep, s, t);
  }

  /** Two newest-first arrangements of matches with distinct creation
      times are the same. */
  lemma ArrangementsEqual(items: seq<Item>, keep: Item -> bool, s: seq<Item>, t: seq<Item>)
    requires NewestArrangement(items, keep, s) && NewestArrangement(items, keep, t)
    requires forall x, y :: x in Filter(items, keep) && y in Filter(items, keep) && x.createdAt == y.createdAt ==> x == y
    ensures s == t
  {
    forall x, y | x in s && y in s && NewestFirst(x) == NewestFirst(y) ensures x == y {
      assert x in multiset(s) && y in multiset(s);
    }
    SortedPermutationsEqual(s, t, NewestFirst);
  }

  /** With no two listed items created at the same time, the requested
      page is the only page that fits the query. */
  lemma ListingPageDetermined(query: map<string, string>, db: Db, page: seq<Item>)
    requires PageLimit(query) >= 0 && PageOffset(query) >= 0
    requires IsListingPage(query, db, page)
    requires forall x, y :: (x in Filter(db.items, Listed(query, db.users)) && y in Filter(db.items, Listed(query, db.users))
                             && x.createdAt == y.createdAt) ==> x == y
    ensures page == Page(query, db)
  {
    NewestWindowUnique(db.items, Listed(query, db.users), PageOffset(query), PageLimit(query), page, Page(query, db));
  }

  /** Every member of `matching` left off a window of its newest-first copy
      came before it or after it. */
  lemma NewestLeftOff(matching: seq<Item>, sorted: seq<Item>, offset: nat, limit: nat)
    requires multiset(sorted) == multiset(matching)
    requires SortedBy(sorted, NewestFirst)
    ensures var page := Take(Drop(sorted, offset), limit);
            |page| > 0 ==> forall x :: x in matching && x !in page ==>
              && (x.createdAt >= page[0].createdAt || x.createdAt <= page[|page| - 1].createdAt)
              && (offset == 0 ==> x.createdAt <= page[|page| - 1].createdAt)
  {
    var page := Take(Drop(sorted, offset), limit);
    if |page| > 0 {
      forall x | x in matching && x !in page
        ensures x.createdAt >= page[0].createdAt || x.createdAt <= page[|page| - 1].createdAt
        ensures offset == 0 ==> x.createdAt <= page[|page| - 1].createdAt
      {
        NewestLeftOffOne(matching, sorted, offset, limit, x);
      }
    }
  }

  /** One match left off a window of a newest-first list. */
  lemma NewestLeftOffOne(matching: seq<Item>, sorted: seq<Item>, offset: nat, limit: nat, x: Item)
    requires multiset(sorted) == multiset(matching)
    requires SortedBy(sorted, NewestFirst)
    requires x in matching && x !in Take(Drop(sorted, offset), limit)
    requires |Take(Drop(sorted, offset), limit)| > 0
    ensures var page := Take(Drop(sorted, offset), limit);
            && (x.createdAt >= page[0].createdAt || x.createdAt <= page[|page| - 1].createdAt)
            && (offset == 0 ==> x.createdAt <= page[|page| - 1].createdAt)
  {
    var page := Take(Drop(sorted, offset), limit);
    WindowLeftOff(matching, sorted, NewestFirst, offset, limit, x);
    var first, last := page[0], page[|page| - 1];
    assert NewestFirst(x) <= NewestFirst(first) || NewestFirst(last) <= NewestFirst(x);
  }

  /** A window of a newest-first list is newest first. */
  lemma NewestWindowOrder(sorted: seq<Item>, offset: nat, limit: nat)
    requires SortedBy(sorted, NewestFirst)
    ensures var page := Take(Drop(sorted, offset), limit);
            forall i, j :: 0 <= i < j < |page| ==> page[i].createdAt >= page[j].createdAt
  {
    var page := Take(Drop(sorted, offset), limit);
    WindowSorted(sorted, NewestFirst, offset, limit);
    forall i, j | 0 <= i < j < |page| ensures page[i].createdAt >= page[j].createdAt {
      assert NewestFirst(page[i]) <= NewestFirst(page[j]);
    }
  }

  /** Every element of `page` taken from the filtered items is an item that
      passes the filter. */
  lemma PageMembers(page: seq<Item>, items: seq<Item>, keep: Item -> bool)
    requires forall k :: 0 <= k < |page| ==> page[k] in Filter(items, keep)
    ensures forall k :: 0 <= k < |page| ==> page[k] in items && keep(page[k])
  {
    forall k | 0 <= k < |page|
      ensures page[k] in items && keep(page[k])
    {
      FilterMember(items, keep, page[k]);
    }
  }

  /** GET marketplace/items. A negative limit or offset makes the SQL
      invalid and the script fails with 500. Otherwise the rows are the
      listing page, each with its seller's name, and `count` is their
      number. Nothing is written. */
  function ListItems(query: map<string, string>, db: Db): (o: Outcome)
    ensures o.db == db
    ensures o.status == 200 || o.status == 500
    ensures o.status == 500 <==> PageLimit(query) < 0 || PageOffset(query) < 0
    ensures o.status == 200 ==>
              && o.body.ItemList?
              && IsListingPage(query, db, RowItems(o.body.items))
              && o.body.count == |o.body.items|
              && (forall k :: 0 <= k < |o.body.items| ==>
                    o.body.items[k].sellerName == FindUser(db.users, o.body.items[k].item.ownerId).value.name)
  {
    if PageLimit(query) < 0 || PageOffset(query) < 0 then Outcome(500, ServerFailure, db)
    else
      var page := Page(query, db);
      var rows := WithSellers(page, db.users);
      Outcome(200, ItemList(rows, |rows|), db)
  }

  /** The row `create` inserts: the fields as sent, the condition "Good"
      when none was sent, active and stamped with the current time. */
  function NewItem(input: map<string, string>, db: Db, ctx: Context): Item {
    Item(
      id := db.nextItemId,
      ownerId := IntParam(input, "owner_id", 0),
      title := Lookup(input, "title", ""),
      description := Lookup(input, "description", ""),
      category := Lookup(input, "category", ""),
      itemType := Lookup(input, "item_type", ""),
      price := Lookup(input, "price", "0"),
      condition := Lookup(input, "condition", "Good"),
      dormLocation := Lookup(input, "dorm_location", ""),
      isActive := true,
      createdAt := ctx.now)
  }

  /** POST marketplace/create. Only the presence of an `Authorization`
      header is checked; no field is required. The new item is appended and
      nothing else changes. */
  function CreateItem(input: map<string, string>, authorization: Option<string>, db: Db, ctx: Context): (o: Outcome)
    ensures o.status == 201 || o.status == 401
    ensures o.status == 401 <==> PhpEmpty(authorization.GetOr(""))
    ensures o.status == 401 ==> o == Reject(401, Unauthorized, db)
    ensures o.status == 201 ==>
              && |o.db.items| == |db.items| + 1
              && o.db == db.(items := db.items + [o.db.items[|db.items|]], nextItemId := db.nextItemId + 1)
              && var it := o.db.items[|db.items|];
              && o.body == ItemCreated(it.id)
              && it.id == db.nextItemId
              && it.isActive && it.createdAt == ctx.now
              && it.ownerId == IntParam(input, "owner_id", 0)
              && it.title == Lookup(input, "title", "")
              && it.category == Lookup(input, "category", "")
              && it.itemType == Lookup(input, "item_type", "")
              && it.description == Lookup(input, "description", "")
              && it.dormLocation == Lookup(input, "dorm_location", "")
              && ("price" !in input ==> it.price == "0")
              && ("price" in input ==> it.price == input["price"])
              && ("condition" !in input ==> it.condition == "Good")
              && ("condition" in input ==> it.condition == input["condition"])
  {
    if PhpEmpty(authorization.GetOr("")) then Reject(401, Unauthorized, db)
    else
      var it := NewItem(input, db, ctx);
      Outcome(201, ItemCreated(it.id), db.(items := db.items + [it], nextItemId := db.nextItemId + 1))
  }

  /** An item strictly newer than every other match heads the first page
      of any window that has room for a row. */
  lemma NewestIsFirst(items: seq<Item>, keep: Item -> bool, limit: int, page: seq<Item>, it: Item)
    requires NewestRows(items, keep, 0, limit, page) && NewestLeftOffBounds(items, keep, 0, page)
    requires limit > 0 && it in items && keep(it)
    requires forall k :: 0 <= k < |items| && items[k] != it ==> items[k].createdAt < it.createdAt
    ensures |page| > 0 && page[0] == it
  {
    FilterKeeps(items, keep, it);
    assert it in Filter(items, keep);
    assert Count(items, keep) > 0;
    var last := page[|page| - 1];
    if last != it {
      assert last.createdAt < it.createdAt;
    }
    assert it in page;
    var k :| 0 <= k < |page| && page[k] == it;
    if k > 0 {
      assert page[0].createdAt >= page[k].createdAt;
    }
    assert page[0].createdAt >= it.createdAt;
  }

  /** A column name in an INSERT's column list: bare, or quoted with
      backticks. */
  datatype Column = Bare(name: string) | Quoted(name: string)

  /** MySQL reserved words that name columns of this schema or sit next to
      them. A bare reserved word in a column list is a syntax error. */
  const ReservedWords: set<string> := {"condition", "desc", "key", "order", "read", "select"}

  /** `prepare` accepts the statement exactly when no bare column name is a
      reserved word. */
  predicate Prepares(columns: seq<Column>) {
    forall k :: 0 <= k < |columns| ==> columns[k].Quoted? || columns[k].name !in ReservedWords
  }

  /** The column list of the item INSERT as written: every name bare. */
  const InsertColumns: seq<Column> :=
    [Bare("owner_id"), Bare("title"), Bare("description"), Bare("category"),
     Bare("item_type"), Bare("price"), Bare("condition"), Bare("dorm_location")]

  /** The same list with `condition` quoted. */
  const QuotedInsertColumns: seq<Column> :=
    [Bare("owner_id"), Bare("title"), Bare("description"), Bare("category"),
     Bare("item_type"), Bare("price"), Quoted("condition"), Bare("dorm_location")]

  /** A witness on the statement's own column lists: the bare `condition`
      makes the INSERT fail to prepare, and quoting it is enough to fix
      that. */
  lemma ReservedColumnBreaksInsert()
    ensures !Prepares(InsertColumns)
    ensures Prepares(QuotedInsertColumns)
  {
    assert InsertColumns[6] == Bare("condition");
  }

  /** POST marketplace/create with a given INSERT column list: past the
      `Authorization` check, a statement that does not prepare throws, and
      the request ends in 500 with nothing stored. */
  function CreateWith(columns: seq<Column>, input: map<string, string>, authorization: Option<string>,
                      db: Db, ctx: Context): (o: Outcome)
    ensures o.status == 401 <==> PhpEmpty(authorization.GetOr(""))
    ensures o.status == 500 <==> !PhpEmpty(authorization.GetOr("")) && !Prepares(columns)
    ensures o.status != 201 ==> o.db == db
  {
    if PhpEmpty(authorization.GetOr("")) then Reject(401, Unauthorized, db)
    else if !Prepares(columns) then Outcome(500, ServerFailure, db)
    else CreateItem(input, authorization, db, ctx)
  }

  /** The handler as written: an authorized create never stores an item;
      it always ends in 500 and the store is unchanged. */
  function CreateItemAsWritten(input: map<string, string>, authorization: Option<string>, db: Db, ctx: Context): (o: Outcome)
    ensures o.db == db
    ensures o.status == 401 || o.status == 500
    ensures o.status == 401 <==> PhpEmpty(authorization.GetOr(""))
  {
    ReservedColumnBreaksInsert();
    CreateWith(InsertColumns, input, authorization, db, ctx)
  }

  /** With `condition` quoted, the handler is CreateItem: an authorized
      create answers 201 where the code as written answers 500. */
  lemma QuotedCreateSucceeds(input: map<string, string>, authorization: Option<string>, db: Db, ctx: Context)
    ensures CreateWith(QuotedInsertColumns, input, authorization, db, ctx) == CreateItem(input, authorization, db, ctx)
    ensures !PhpEmpty(authorization.GetOr("")) ==>
              && CreateItem(input, authorization, db, ctx).status == 201
              && CreateItemAsWritten(input, authorization, db, ctx) == Outcome(500, ServerFailure, db)
  {
    ReservedColumnBreaksInsert();
  }

  /** A listed item strictly newer than every other stored item is the
      first row of the unfiltered listing's first page. */
  lemma NewestListedFirst(db: Db, it: Item)
    requires it in db.items && Listed(map[], db.users)(it)
    requires forall k :: 0 <= k < |db.items| && db.items[k] != it ==> db.items[k].createdAt < it.createdAt
    ensures var o := ListItems(map[], db);
            && o.status == 200
            && |o.body.items| > 0
            && o.body.items[0].item == it
  {
    DefaultListing(db);
    var o := ListItems(map[], db);
    var rows := RowItems(o.body.items);
    NewestIsFirst(db.items, Listed(map[], db.users), 50, rows, it);
    assert o.body.items[0].item == rows[0];
  }

  /** A query without parameters asks for the first 50 rows. */
  lemma DefaultWindow()
    ensures PageLimit(map[]) == 50 && PageOffset(map[]) == 0
  {
  }

  /** A query without parameters is answered with the first 50 rows of
      the newest-first listing. */
  lemma DefaultListing(db: Db)
    ensures var o := ListItems(map[], db);
            && o.status == 200 && o.body.ItemList?
            && IsNewestWindow(db.items, Listed(map[], db.users), 0, 50, RowItems(o.body.items))
  {
    DefaultWindow();
  }

  /** Under a clock that has moved on since every stored item was
      created, an item just created, whose owner exists, is the first row of
      the unfiltered listing's first page. */
  lemma CreatedItemIsListed(input: map<string, string>, authorization: Option<string>, db: Db, ctx: Context)
    requires CreateItem(input, authorization, db, ctx).status == 201
    requires FindUser(db.users, IntParam(input, "owner_id", 0)).Some?
    requires forall k :: 0 <= k < |db.items| ==> db.items[k].createdAt < ctx.now
    ensures var db1 := CreateItem(input, authorization, db, ctx).db;
            var o := ListItems(map[], db1);
            && o.status == 200
            && |o.body.items| > 0
            && o.body.items[0].item == db1.items[|db.items|]
  {
    var db1 := CreateItem(input, authorization, db, ctx).db;
    var it := db1.items[|db.items|];
    assert db1.items == db.items + [it];
    assert Lookup(map[], "category", "") == "" && Lookup(map[], "type", "") == "";
    assert Listed(map[], db1.users)(it);
    forall k | 0 <= k < |db1.items| && db1.items[k] != it
      ensures db1.items[k].createdAt < it.createdAt
    {
      assert db1.items[k] == db.items[k];
    }
    NewestListedFirst(db1, it);
  }

  /** Item creation hands out the next item id. */
  lemma CreatePreservesWellFormed(input: map<string, string>, authorization: Option<string>, db: Db, ctx: Context)
    requires WellFormed(db)
    ensures WellFormed(CreateItem(input, authorization, db, ctx).db)
  {
    var o := CreateItem(input, authorization, db, ctx);
    if o.status == 201 {
      AppendItemFresh(db.items, db.nextItemId, NewItem(input, db, ctx));
    }
  }
}

=== FILE: api_messages.dfy ===
/** The DIRECT MESSAGES section of the API: fetching a conversation, which
    also marks it read, and sending a message. */
module ApiMessages {
  import opened Wrappers
  import opened Seqs
  import opened StableSort
  import opened Text
  import opened Store
  import opened ApiTypes

  /** At most this many messages of a conversation are returned. */
  const ThreadCap := 100

  /** A message between `a` and `b`, in either direction. */
  function Between(a: int, b: int): Message -> bool {
    (m: Message) => (m.senderId == a && m.receiverId == b) || (m.senderId == b && m.receiverId == a)
  }

  /** A message from `sender` to `receiver` not yet read. */
  function UnreadFrom(sender: int, receiver: int): Message -> bool {
    (m: Message) => m.senderId == sender && m.receiverId == receiver && !m.isRead
  }

  /** `ORDER BY created_at ASC`. */
  function OldestFirst(m: Message): int {
    m.createdAt
  }

  /** The UPDATE of the conversation fetch: every message from `other` to
      `user` marked read at `now`, read or not before. */
  function MarkRead(messages: seq<Message>, user: int, other: int, now: Timestamp): (r: seq<Message>)
    ensures |r| == |messages|
    ensures forall k :: 0 <= k < |messages| && messages[k].receiverId == user && messages[k].senderId == other
              ==> r[k] == messages[k].(isRead := true, readAt := Some(now))
    ensures forall k :: 0 <= k < |messages| && !(messages[k].receiverId == user && messages[k].senderId == other)
              ==> r[k] == messages[k]
  {
    seq(|messages|, k requires 0 <= k < |messages| =>
      if messages[k].receiverId == user && messages[k].senderId == other
      then messages[k].(isRead := true, readAt := Some(now))
      else messages[k])
  }

  /** The messages between `user` and `other` arranged oldest first: any
      order `ORDER BY created_at ASC` may produce, which differ only among
      messages sent at the same time. */
  ghost predicate OldestArrangement(messages: seq<Message>, user: int, other: int, s: seq<Message>) {
    multiset(s) == multiset(Filter(messages, Between(user, other))) && SortedBy(s, OldestFirst)
  }

  /** What `ORDER BY created_at ASC LIMIT 100` returns over the messages
      between `user` and `other`: the first `ThreadCap` of an oldest-first
      arrangement of them, or all when they fit. Each is a message of the
      conversation, none is returned more often than it was sent, and they
      come oldest first. A message of the conversation left off is no older
      than the last one returned, so a long conversation never shows its
      newest messages. */
  ghost predicate IsThread(messages: seq<Message>, user: int, other: int, t: seq<Message>) {
    && |t| == (if Count(messages, Between(user, other)) <= ThreadCap
               then Count(messages, Between(user, other)) else ThreadCap)
    && (forall k :: 0 <= k < |t| ==> t[k] in messages && Between(user, other)(t[k]))
    && (forall i, j :: 0 <= i < j < |t| ==> t[i].createdAt <= t[j].createdAt)
    && (Count(messages, Between(user, other)) <= ThreadCap
        ==> multiset(t) == multiset(Filter(messages, Between(user, other))))
    && (|t| > 0 ==> forall x :: x in Filter(messages, Between(user, other)) && x !in t ==>
          t[|t| - 1].createdAt <= x.createdAt)
    && multiset(t) <= multiset(Filter(messages, Between(user, other)))
    && exists s :: OldestArrangement(messages, user, other, s) && t == Take(s, ThreadCap)
  }

  /** The conversation the fetch returns. */
  function ThreadOf(messages: seq<Message>, user: int, other: int): (t: seq<Message>)
    ensures IsThread(messages, user, other, t)
  {
    var matching := Filter(messages, Between(user, other));
    var sorted := Sort(matching, OldestFirst);
    OldestPrefix(matching, sorted);
    ThreadMembers(Take(Drop(sorted, 0), ThreadCap), messages, Between(user, other));
    ThreadCut(messages, user, other);
    Take(Drop(sorted, 0), ThreadCap)
  }

  /** The conversation is cut from the sort's own oldest-first arrangement. */
  lemma ThreadCut(messages: seq<Message>, user: int, other: int)
    ensures var t := Take(Drop(Sort(Filter(messages, Between(user, other)), OldestFirst), 0), ThreadCap);
            && multiset(t) <= multiset(Filter(messages, Between(user, other)))
            && exists s :: OldestArrangement(messages, user, other, s) && t == Take(s, ThreadCap)
  {
    var sorted := Sort(Filter(messages, Between(user, other)), OldestFirst);
    WindowWithin(sorted, 0, ThreadCap);
    assert Drop(sorted, 0) == sorted;
    assert OldestArrangement(messages, user, other, sorted);
  }

  /** When no two messages of the conversation were sent at the same time,
      the conversation returned is determined: two that both fit are the
      same. */
  lemma ThreadUnique(messages: seq<Message>, user: int, other: int, t: seq<Message>, u: seq<Message>)
    requires IsThread(messages, user, other, t) && IsThread(messages, user, other, u)
    requires forall x, y :: (x in Filter(messages, Between(user, other)) && y in Filter(messages, Between(user, other))
                             && x.createdAt == y.createdAt) ==> x == y
    ensures t == u
  {
    var s :| OldestArrangement(messages, user, other, s) && t == Take(s, ThreadCap);
    var s' :| OldestArrangement(messages, user, other, s') && u == Take(s', ThreadCap);
    forall x, y | x in s && y in s && OldestFirst(x) == OldestFirst(y) ensures x == y {
      assert x in multiset(s) && y in multiset(s);
    }
    SortedPermutationsEqual(s, s', OldestFirst);
  }

  /** Every element of `t` taken from the filtered messages is a message
      that passes the filter. */
  lemma ThreadMembers(t: seq<Message>, messages: seq<Message>, keep: Message -> bool)
    requires forall k :: 0 <= k < |t| ==> t[k] in Filter(messages, keep)
    ensures forall k :: 0 <= k < |t| ==> t[k] in messages && keep(t[k])
  {
    forall k | 0 <= k < |t|
      ensures t[k] in messages && keep(t[k])
    {
      FilterMember(messages, keep, t[k]);
    }
  }

  /** The capped prefix of an oldest-first copy of `matching`: the oldest
      `ThreadCap` members, in order, all of them when they fit, and none
      left off that is older than the last one kept. */
  lemma OldestPrefix(matching: seq<Message>, sorted: seq<Message>)
    requires multiset(sorted) == multiset(matching)
    requires SortedBy(sorted, OldestFirst)
    ensures var t := Take(Drop(sorted, 0), ThreadCap);
            && |t| == (if |matching| <= ThreadCap then |matching| else ThreadCap)
            && (forall k :: 0 <= k < |t| ==> t[k] in matching)
            && (forall i, j :: 0 <= i < j < |t| ==> t[i].createdAt <= t[j].createdAt)
            && (|matching| <= ThreadCap ==> t == sorted)
            && (|t| > 0 ==> forall x :: x in matching && x !in t ==> t[|t| - 1].createdAt <= x.createdAt)
  {
    var t := Take(Drop(sorted, 0), ThreadCap);
    WindowShape(matching, sorted, 0, ThreadCap);
    WindowSorted(sorted, OldestFirst, 0, ThreadCap);
    forall i, j | 0 <= i < j < |t| ensures t[i].createdAt <= t[j].createdAt {
      assert OldestFirst(t[i]) <= OldestFirst(t[j]);
    }
    if |t| > 0 {
      forall x | x in matching && x !in t ensures t[|t| - 1].createdAt <= x.createdAt {
        WindowLeftOff(matching, sorted, OldestFirst, 0, ThreadCap, x);
        assert OldestFirst(t[|t| - 1]) <= OldestFirst(x);
      }
    }
  }

  /** GET messages/get. Both ids must be positive. The answer is the
      conversation as it was before the call, its oldest messages first; the
      call then marks read every message from `other_user_id` to `user_id`,
      including those past the cap, and changes nothing else. */
  function GetThread(query: map<string, string>, db: Db, ctx: Context): (o: Outcome)
    ensures o.status == 200 || o.status == 400
    ensures o.status == 400 <==> IntParam(query, "user_id", 0) <= 0 || IntParam(query, "other_user_id", 0) <= 0
    ensures o.status == 400 ==> o == Reject(400, InvalidUserIds, db)
    ensures o.status == 200 ==>
              var user := IntParam(query, "user_id", 0);
              var other := IntParam(query, "other_user_id", 0);
              && o.body.Thread?
              && IsThread(db.messages, user, other, o.body.messages)
              && o.db == db.(messages := o.db.messages)
              && |o.db.messages| == |db.messages|
              && (forall k :: 0 <= k < |db.messages| ==>
                    if db.messages[k].receiverId == user && db.messages[k].senderId == other
                    then o.db.messages[k] == db.messages[k].(isRead := true, readAt := Some(ctx.now))
                    else o.db.messages[k] == db.messages[k])
  {
    var user := IntParam(query, "user_id", 0);
    var other := IntParam(query, "other_user_id", 0);
    if user <= 0 || other <= 0 then Reject(400, InvalidUserIds, db)
    else
      var thread := ThreadOf(db.messages, user, other);
      Outcome(200, Thread(thread), db.(messages := MarkRead(db.messages, user, other, ctx.now)))
  }

  /** After fetching a conversation, nothing from the other user to the
      caller is left unread. */
  lemma FetchLeavesNothingUnread(query: map<string, string>, db: Db, ctx: Context)
    requires GetThread(query, db, ctx).status == 200
    ensures Count(GetThread(query, db, ctx).db.messages,
                  UnreadFrom(IntParam(query, "other_user_id", 0), IntParam(query, "user_id", 0))) == 0
  {
    var after := GetThread(query, db, ctx).db.messages;
    var unread := UnreadFrom(IntParam(query, "other_user_id", 0), IntParam(query, "user_id", 0));
    assert forall k :: 0 <= k < |after| ==> !unread(after[k]);
    FilterNone(after, unread);
  }

  /** The row `send` inserts: unread, and about no item unless `item_id`
      is positive. */
  function NewMessage(input: map<string, string>, db: Db, ctx: Context): Message {
    var item := IntParam(input, "item_id", 0);
    Message(
      id := db.nextMessageId,
      senderId := IntParam(input, "sender_id", 0),
      receiverId := IntParam(input, "receiver_id", 0),
      itemId := if item > 0 then Some(item) else None,
      content := Lookup(input, "message", ""),
      isRead := false,
      createdAt := ctx.now,
      readAt := None)
  }

  /** POST messages/send. Both ids must be positive and the content not
      PHP-empty; the message is appended unread and nothing else changes. */
  function SendMessage(input: map<string, string>, db: Db, ctx: Context): (o: Outcome)
    ensures o.status == 201 || o.status == 400
    ensures o.status == 400 <==>
              IntParam(input, "sender_id", 0) <= 0 || IntParam(input, "receiver_id", 0) <= 0
              || PhpEmpty(Lookup(input, "message", ""))
    ensures o.status == 400 ==> o == Reject(400, MissingFields, db)
    ensures o.status == 201 ==>
              && |o.db.messages| == |db.messages| + 1
              && o.db == db.(messages := db.messages + [o.db.messages[|db.messages|]],
                             nextMessageId := db.nextMessageId + 1)
              && var m := o.db.messages[|db.messages|];
              && o.body == MessageSent(m.id)
              && m.id == db.nextMessageId
              && m.senderId == IntParam(input, "sender_id", 0) && m.senderId > 0
              && m.receiverId == IntParam(input, "receiver_id", 0) && m.receiverId > 0
              && m.content == Lookup(input, "message", "")
              && !m.isRead && m.readAt.None?
              && (m.itemId.Some? <==> IntParam(input, "item_id", 0) > 0)
              && (m.itemId.Some? ==> m.itemId.value == IntParam(input, "item_id", 0))
  {
    var sender := IntParam(input, "sender_id", 0);
    var receiver := IntParam(input, "receiver_id", 0);
    if sender <= 0 || receiver <= 0 || PhpEmpty(Lookup(input, "message", "")) then
      Reject(400, MissingFields, db)
    else
      var m := NewMessage(input, db, ctx);
      Outcome(201, MessageSent(m.id), db.(messages := db.messages + [m], nextMessageId := db.nextMessageId + 1))
  }

  /** A message just sent is unread for its receiver until the receiver
      fetches the conversation with the sender; that fetch marks it read. */
  lemma SendThenFetchMarksRead(input: map<string, string>, db: Db, ctx: Context, later: Context)
    requires SendMessage(input, db, ctx).status == 201
    ensures var sent := SendMessage(input, db, ctx).db;
            var m := sent.messages[|db.messages|];
            var q := map["user_id" := input["receiver_id"], "other_user_id" := input["sender_id"]];
            && UnreadFrom(m.senderId, m.receiverId)(m)
            && GetThread(q, sent, later).status == 200
            && GetThread(q, sent, later).db.messages[|db.messages|]
               == m.(isRead := true, readAt := Some(later.now))
  {
    var q := map["user_id" := input["receiver_id"], "other_user_id" := input["sender_id"]];
    assert IntParam(q, "user_id", 0) == IntParam(input, "receiver_id", 0);
    assert IntParam(q, "other_user_id", 0) == IntParam(input, "sender_id", 0);
  }

  /** Marking read keeps every id. */
  lemma GetThreadPreservesWellFormed(query: map<string, string>, db: Db, ctx: Context)
    requires WellFormed(db)
    ensures WellFormed(GetThread(query, db, ctx).db)
  {
    var user := IntParam(query, "user_id", 0);
    var other := IntParam(query, "other_user_id", 0);
    if user > 0 && other > 0 {
      var marked := MarkRead(db.messages, user, other, ctx.now);
      assert forall i :: 0 <= i < |db.messages| ==> marked[i].id == db.messages[i].id;
      SameMessageIds(db.messages, marked, db.nextMessageId);
    }
  }

  /** Sending hands out the next message id. */
  lemma SendPreservesWellFormed(input: map<string, string>, db: Db, ctx: Context)
    requires WellFormed(db)
    ensures WellFormed(SendMessage(input, db, ctx).db)
  {
    var s := SendMessage(input, db, ctx);
    if s.status == 201 {
      var m := NewMessage(input, db, ctx);
      assert s.db == db.(messages := db.messages + [m], nextMessageId := db.nextMessageId + 1);
      SendKeepsWellFormed(db, m);
    }
  }
}

=== FILE: api_types.dfy ===
/** What a request to the API carries in and what comes back: status code,
    JSON body and the store afterwards. */
module ApiTypes {
  import opened Wrappers
  import opened Hex
  import opened Store
  import opened Numeric

  /** An HTTP request: the method, the query string, the decoded JSON body
      (empty when the body is not a JSON object; every scalar is held as its
      text) and the `Authorization` header. */
  datatype Request = Request(
    httpMethod: string,
    query: map<string, string>,
    body: map<string, string>,
    authorization: Option<string>)

  /** Everything a request reads besides the store: the clock, the
      configured cron secret (`getenv` gives nothing when it is unset), the
      email-syntax predicate `FILTER_VALIDATE_EMAIL`, the outcomes of
      `random_bytes(16)`, `array_rand` and the bcrypt salt, the schema's
      default role, and the rows of the reminders view. */
  datatype Context = Context(
    now: Timestamp,
    cronKey: Option<string>,
    isEmail: string -> bool,
    randomBytes: seq<Byte>,
    avatarPick: nat,
    salt: nat,
    defaultRoleId: int,
    reminderView: seq<ReminderRow>)

  /** The palette new users' avatar colours are drawn from. */
  const AvatarPalette: seq<string> := ["#FF6B6B", "#4ECDC4", "#45B7D1", "#FFA07A", "#98D8C8"]

  predicate ValidContext(ctx: Context) {
    |ctx.randomBytes| == 16 && ctx.avatarPick < |AvatarPalette|
  }

  /** `intval($params[$key] ?? $default)`: the integer a parameter's text
      starts with, or `default` when the parameter is absent. */
  function IntParam(params: map<string, string>, key: string, default: int): int {
    if key in params then Intval(params[key]) else default
  }

  /** The login token's claims; the base64-of-JSON encoding is not modelled. */
  datatype SessionToken = SessionToken(userId: int, email: string, issuedAt: Timestamp)

  /** The user fields a successful login returns; the password hash is not
      among them. */
  datatype Profile = Profile(userId: int, name: string, email: string, uniEmail: string, roleId: int)

  function ProfileOf(u: User): Profile {
    Profile(u.id, u.name, u.personalEmail, u.uniEmail, u.roleId)
  }

  /** An item row of the listing, with the owner's name from the join. */
  datatype ItemRow = ItemRow(item: Item, sellerName: string)

  datatype Body =
    | NoBody
    | ErrorBody(error: string)
    | ServerFailure
    | Registered(userId: int, verificationToken: string, uniEmail: string)
    | LoggedIn(token: SessionToken, user: Profile)
    | EmailVerified
    | ItemList(items: seq<ItemRow>, count: int)
    | ItemCreated(itemId: int)
    | Thread(messages: seq<Message>)
    | MessageSent(messageId: int)
    | RemindersSent(sentCount: int)

  datatype Outcome = Outcome(status: int, body: Body, db: Db)

  /** An error response that leaves the store as it was. */
  function Reject(status: int, error: string, db: Db): Outcome {
    Outcome(status, ErrorBody(error), db)
  }

  const MissingFields := "Missing required fields"
  const InvalidEmail := "Invalid email address"
  const NeedsEduDomain := "University email must contain .edu domain"
  const ShortPassword := "Password must be at least 6 characters"
  const EmailExists := "User with this email already exists"
  const MissingCredentials := "Missing email or password"
  const InvalidCredentials := "Invalid credentials"
  const NotVerified := "Please verify your email first"
  const InvalidToken := "Invalid verification token"
  const Unauthorized := "Unauthorized"
  const InvalidUserIds := "Invalid user IDs"
  const EndpointNotFound := "Endpoint not found"

  /** Tables other than the users table are unchanged. */
  predicate OnlyUsersChanged(before: Db, after: Db) {
    after.items == before.items && after.messages == before.messages && after.rentals == before.rentals
    && after.nextItemId == before.nextItemId && after.nextMessageId == before.nextMessageId
  }
}

=== FILE: auth_client.dfy ===
/** The browser-side authentication script: the checks made before a
    registration request is sent, the locally stored users' verification
    state, logout, and the avatar colour pick. */
module AuthClient {
  import opened Wrappers
  import opened Seqs
  import opened Text
  import opened Unicode
  import opened Numeric

  /** What the registration form does when submitted. */
  datatype RegisterCheck =
    | SendRequest
    | RejectUniEmail
    | RejectMismatch
    | RejectShortPassword

  /** The checks of `handleRegister`, in order: the university email holds
      '@' and ".edu" (case-sensitive), the two passwords are equal, and the
      password is at least 6 UTF-16 code units long. The request is sent
      only when all pass; the first failure decides the alert. */
  function CheckRegistration(uniEmail: string, password: string, confirm: string): (c: RegisterCheck)
    ensures c == SendRequest <==>
              Contains(uniEmail, "@") && Contains(uniEmail, ".edu")
              && password == confirm && Utf16Length(password) >= 6
    ensures c == RejectUniEmail <==> !Contains(uniEmail, "@") || !Contains(uniEmail, ".edu")
    ensures c == RejectMismatch <==>
              Contains(uniEmail, "@") && Contains(uniEmail, ".edu") && password != confirm
    ensures c == RejectShortPassword <==>
              Contains(uniEmail, "@") && Contains(uniEmail, ".edu")
              && password == confirm && Utf16Length(password) < 6
  {
    if !Contains(uniEmail, "@") || !Contains(uniEmail, ".edu") then RejectUniEmail
    else if password != confirm then RejectMismatch
    else if Utf16Length(password) < 6 then RejectShortPassword
    else SendRequest
  }

  /** A user of the locally stored list. */
  datatype LocalUser = LocalUser(
    id: int,
    name: string,
    uniEmail: string,
    verificationToken: string,
    isVerified: bool)

  function HasToken(token: string): LocalUser -> bool {
    (u: LocalUser) => u.verificationToken == token
  }

  function HasId(id: int): LocalUser -> bool {
    (u: LocalUser) => u.id == id
  }

  /** What `verifyEmail` does. */
  datatype LocalVerify =
    | BadCodeFormat
    | NoSuchToken
    | Verified(users: seq<LocalUser>, index: nat)

  /** `verifyEmail`: a typed code whose length is not 6 is refused and
      nothing changes. Otherwise the code is not compared with anything: the
      first user whose token equals the `token` argument is marked verified,
      and every other user is left as it was. */
  function VerifyEmail(users: seq<LocalUser>, token: string, code: string): (r: LocalVerify)
    ensures Utf16Length(code) != 6 <==> r == BadCodeFormat
    ensures r == NoSuchToken <==>
              Utf16Length(code) == 6 && forall k :: 0 <= k < |users| ==> users[k].verificationToken != token
    ensures r.Verified? ==>
              && r.index < |users| && |r.users| == |users|
              && users[r.index].verificationToken == token
              && (forall k :: 0 <= k < r.index ==> users[k].verificationToken != token)
              && r.users[r.index] == users[r.index].(isVerified := true)
              && (forall k :: 0 <= k < |users| && k != r.index ==> r.users[k] == users[k])
  {
    if Utf16Length(code) != 6 then BadCodeFormat
    else
      match FirstIndex(users, HasToken(token))
      case None => NoSuchToken
      case Some(k) => Verified(users[k := users[k].(isVerified := true)], k)
  }

  /** Only the length of the typed code matters: any two codes of six code
      units have the same effect. */
  lemma CodeIsNotChecked(users: seq<LocalUser>, token: string, code1: string, code2: string)
    requires Utf16Length(code1) == 6 && Utf16Length(code2) == 6
    ensures VerifyEmail(users, token, code1) == VerifyEmail(users, token, code2)
  {
  }

  /** `resendVerificationCode`: the id arrives as text and is read with
      `parseInt`; the first user with that id gets `newToken` and nothing
      else changes. When no user matches, nothing changes at all. */
  function ResendVerificationCode(users: seq<LocalUser>, userId: string, newToken: string): (r: seq<LocalUser>)
    ensures |r| == |users|
    ensures forall k :: 0 <= k < |users| ==>
              r[k] == users[k] || (r[k] == users[k].(verificationToken := newToken)
                                   && LeadingInt(userId) == Some(users[k].id))
    ensures LeadingInt(userId).None? ==> r == users
    ensures LeadingInt(userId).Some? ==>
              match FirstIndex(users, HasId(LeadingInt(userId).value))
              case None => r == users
              case Some(k) =>
                && r[k] == users[k].(verificationToken := newToken)
                && forall j :: 0 <= j < |users| && j != k ==> r[j] == users[j]
  {
    match LeadingInt(userId)
    case None => users
    case Some(id) =>
      match FirstIndex(users, HasId(id))
      case None => users
      case Some(k) => users[k := users[k].(verificationToken := newToken)]
  }

  /** The verification modal passes a user's numeric id through the page
      as decimal text; reading it back reaches that same user. */
  lemma ResendReachesTheUser(users: seq<LocalUser>, k: nat, newToken: string)
    requires k < |users|
    requires forall j :: 0 <= j < |users| && j != k ==> users[j].id != users[k].id
    ensures var r := ResendVerificationCode(users, ShowInt(users[k].id), newToken);
            && r[k] == users[k].(verificationToken := newToken)
            && forall j :: 0 <= j < |users| && j != k ==> r[j] == users[j]
  {
    ShowIntRoundTrip(users[k].id);
  }

  /** The signed-in user as the page keeps it. */
  datatype SessionUser = SessionUser(
    id: int,
    name: string,
    email: string,
    uniEmail: string,
    role: int,
    avatarColor: Option<string>)

  /** The page's session: the signed-in user and the browser's storage. */
  datatype Session = Session(currentUser: Option<SessionUser>, storage: map<string, string>)

  const CurrentUserKey := "avocado_current_user"
  const AuthTokenKey := "auth_token"

  /** `handleLogout`: forgets the signed-in user and its stored copy; every
      other stored entry, the API token among them, stays. */
  function Logout(s: Session): (r: Session)
    ensures r.currentUser.None?
    ensures CurrentUserKey !in r.storage
    ensures forall key :: key != CurrentUserKey ==>
              (key in r.storage <==> key in s.storage)
              && (key in s.storage ==> r.storage[key] == s.storage[key])
    ensures AuthTokenKey in s.storage ==> r.storage[AuthTokenKey] == s.storage[AuthTokenKey]
  {
    Session(None, s.storage - {CurrentUserKey})
  }

  /** The five avatar colours. */
  const AvatarColors: seq<string> := ["#FF6B6B", "#4ECDC4", "#45B7D1", "#FFA07A", "#98D8C8"]

  /** `generateAvatarColor` for a `Math.random()` draw `r` in [0, 1): the
      colour at `floor(r * 5)`. */
  function GenerateAvatarColor(r: real): (color: string)
    requires 0.0 <= r < 1.0
    ensures color in AvatarColors
    ensures exists k :: 0 <= k < 5 && color == AvatarColors[k] && k as real <= r * 5.0 < k as real + 1.0
  {
    var k := (r * 5.0).Floor;
    AvatarColors[k]
  }

  /** Every colour is drawn for a fifth of the range. */
  lemma EveryColorReachable(k: nat)
    requires k < 5
    ensures GenerateAvatarColor(k as real / 5.0) == AvatarColors[k]
  {
    assert (k as real / 5.0) * 5.0 == k as real;
  }
}

=== FILE: client_server.dfy ===
/** How the browser's registration checks and avatar palette relate to the
    server's. */
module ClientServer {
  import opened Text
  import opened Unicode
  import opened ApiTypes
  import opened ApiAuth
  import opened AuthClient

  /** The client's case-sensitive ".edu" test is stricter than the server's
      case-insensitive one. */
  lemma {:induction false} EduCheckAgrees(uniEmail: string)
    requires Contains(uniEmail, ".edu")
    ensures ContainsIgnoreCase(uniEmail, ".edu")
  {
    var i :| 0 <= i <= |uniEmail| - 4 && OccursAt(uniEmail, ".edu", i);
    var lower := LowerAscii(uniEmail);
    forall m | i <= m < i + 4
      ensures lower[m] == uniEmail[m]
    {
      assert uniEmail[m] == ".edu"[m - i];
    }
    assert lower[i..i + 4] == uniEmail[i..i + 4];
    assert OccursAt(lower, ".edu", i);
  }

  /** A counterexample witness that the converse fails: an upper-case
      domain passes the server but not the client. */
  lemma UpperCaseDomainOnlyPassesServer()
    ensures ContainsIgnoreCase("a@b.EDU", ".edu")
    ensures !Contains("a@b.EDU", ".edu")
  {
    var s := "a@b.EDU";
    assert LowerAscii(s)[3..7] == ".edu";
    assert OccursAt(LowerAscii(s), ".edu", 3);
    forall i | 0 <= i <= |s| - 4
      ensures !OccursAt(s, ".edu", i)
    {
      assert s[i..i + 4][1] != 'e';
    }
  }

  /** A password of at least 6 UTF-16 code units has at least 6 UTF-8
      bytes, so the two length checks agree on what the client lets through. */
  lemma PasswordThresholdAgrees(password: string)
    requires Utf16Length(password) >= 6
    ensures Utf8Length(password) >= 6
  {
    Utf16NoLongerThanUtf8(password);
  }

  /** A form the client submits cannot be refused by the server for its
      domain or its password length; only the fields, the email syntax and
      an existing account remain. */
  lemma ClientAcceptedPassesServerChecks(input: map<string, string>, confirm: string, db: Store.Db, ctx: Context)
    requires ValidContext(ctx)
    requires CheckRegistration(UniEmail(input), Password(input), confirm) == SendRequest
    ensures var o := Register(input, db, ctx);
            o.body != ErrorBody(NeedsEduDomain) && o.body != ErrorBody(ShortPassword)
  {
    EduCheckAgrees(UniEmail(input));
    PasswordThresholdAgrees(Password(input));
  }

  /** Both sides draw avatar colours from the same five. */
  lemma PalettesAgree()
    ensures AvatarColors == AvatarPalette
  {
  }
}

=== FILE: env_file.dfy ===
/** The `.env` loader at the top of the API script: every line that holds
    an '=' and does not begin with '#' becomes an environment variable.
    Reading the file and `putenv` itself are outside the model; the lines
    are given, and the environment is a map. */
module EnvFile {
  import opened Wrappers
  import opened Text

  datatype Entry = Entry(key: string, value: string)

  /** One line: the text before the first '=' is the key and the text after
      it the value, both trimmed. A '#' counts as a comment only in the first
      column, and a line without '=' is ignored. */
  function ParseLine(line: string): (r: Option<Entry>)
    ensures r.Some? <==> '=' in line && !(|line| > 0 && line[0] == '#')
    ensures r.Some? ==> var i := IndexOf(line, '=');
                        && 0 <= i < |line| && line[i] == '=' && '=' !in line[..i]
                        && r.value.key == Trim(line[..i]) && r.value.value == Trim(line[i + 1..])
    ensures r.Some? ==> '=' !in r.value.key
  {
    var i := IndexOf(line, '=');
    if i < 0 || (|line| > 0 && line[0] == '#') then None
    else
      KeyHasNoEquals(line[..i]);
      Some(Entry(Trim(line[..i]), Trim(line[i + 1..])))
  }

  /** Trimming keeps a character out if it was out. */
  lemma KeyHasNoEquals(s: string)
    requires '=' !in s
    ensures '=' !in Trim(s)
  {
    TrimIsMaximalInnerSlice(s);
  }

  /** The value the last line setting `k` gives it, if any line does. */
  function LastValue(lines: seq<string>, k: string): Option<string> {
    if lines == [] then None
    else
      var later := LastValue(lines[1..], k);
      if later.Some? then later
      else
        match ParseLine(lines[0])
        case Some(e) => if e.key == k then Some(e.value) else None
        case None => None
  }

  /** Some line sets a variable with an empty name. */
  predicate HasEmptyKey(lines: seq<string>) {
    exists j | 0 <= j < |lines| :: ParseLine(lines[j]).Some? && ParseLine(lines[j]).value.key == ""
  }

  /** Applies the lines in order to the environment `env`. PHP 8's `putenv`
      throws on an assignment with an empty name, which ends the script:
      that is `None`. */
  function Load(lines: seq<string>, env: map<string, string>): Option<map<string, string>> {
    if lines == [] then Some(env)
    else
      match ParseLine(lines[0])
      case None => Load(lines[1..], env)
      case Some(e) =>
        if e.key == "" then None else Load(lines[1..], env[e.key := e.value])
  }

  lemma HasEmptyKeyUnfold(lines: seq<string>)
    requires lines != []
    ensures HasEmptyKey(lines) <==>
              (ParseLine(lines[0]).Some? && ParseLine(lines[0]).value.key == "")
              || HasEmptyKey(lines[1..])
  {
    if HasEmptyKey(lines[1..]) {
      var j :| 0 <= j < |lines[1..]| && ParseLine(lines[1..][j]).Some? && ParseLine(lines[1..][j]).value.key == "";
      assert lines[j + 1] == lines[1..][j];
    }
    if HasEmptyKey(lines) {
      var j :| 0 <= j < |lines| && ParseLine(lines[j]).Some? && ParseLine(lines[j]).value.key == "";
      if j > 0 {
        assert lines[1..][j - 1] == lines[j];
      }
    }
  }

  /** Loading fails exactly when a line sets a variable with an empty name. */
  lemma {:induction false} LoadFailsOnEmptyKey(lines: seq<string>, env: map<string, string>)
    ensures Load(lines, env).None? <==> HasEmptyKey(lines)
  {
    if lines != [] {
      HasEmptyKeyUnfold(lines);
      match ParseLine(lines[0])
      case None =>
        LoadFailsOnEmptyKey(lines[1..], env);
      case Some(e) =>
        if e.key != "" {
          LoadFailsOnEmptyKey(lines[1..], env[e.key := e.value]);
        }
    }
  }

  /** When loading succeeds, every variable keeps its earlier value unless a
      line sets it, and then the last such line wins. */
  lemma {:induction false} LoadLastWins(lines: seq<string>, env: map<string, string>, k: string)
    requires Load(lines, env).Some?
    ensures var e := Load(lines, env).value;
              && (k in e <==> k in env || LastValue(lines, k).Some?)
              && (LastValue(lines, k).Some? ==> e[k] == LastValue(lines, k).value)
              && (LastValue(lines, k).None? && k in env ==> e[k] == env[k])
  {
    if lines != [] {
      var p := ParseLine(lines[0]);
      var later := LastValue(lines[1..], k);
      var env' := if p.Some? then env[p.value.key := p.value.value] else env;
      assert Load(lines, env) == Load(lines[1..], env');
      assert LastValue(lines, k) == if later.Some? then later
                                    else if p.Some? && p.value.key == k then Some(p.value.value)
                                    else None;
      LoadLastWins(lines[1..], env', k);
    }
  }
}

=== FILE: hex.dfy ===
/** PHP's `bin2hex`, used to turn 16 random bytes into a verification token. */
module Hex {

  type Byte = x: int | 0 <= x < 256

  /** A lower-case hexadecimal digit. */
  predicate IsHexDigit(c: char) {
    '0' <= c <= '9' || 'a' <= c <= 'f'
  }

  /** The digit for a nibble. */
  function HexDigit(v: nat): (c: char)
    requires v < 16
    ensures IsHexDigit(c)
  {
    if v < 10 then ('0' as int + v) as char else ('a' as int + v - 10) as char
  }

  /** The nibble a digit stands for. */
  function HexValue(c: char): (v: nat)
    requires IsHexDigit(c)
    ensures v < 16 && HexDigit(v) == c
  {
    if '0' <= c <= '9' then c as int - '0' as int else c as int - 'a' as int + 10
  }

  /** Two lower-case hex digits per byte, high nibble first. */
  function Bin2Hex(bytes: seq<Byte>): (s: string)
    ensures |s| == 2 * |bytes|
    ensures forall k :: 0 <= k < |s| ==> IsHexDigit(s[k])
  {
    if bytes == [] then ""
    else [HexDigit(bytes[0] / 16), HexDigit(bytes[0] % 16)] + Bin2Hex(bytes[1..])
  }

  /** PHP's `hex2bin` on a string of lower-case hex digit pairs. */
  function Hex2Bin(s: string): (bytes: seq<Byte>)
    requires |s| % 2 == 0
    requires forall k :: 0 <= k < |s| ==> IsHexDigit(s[k])
    ensures |bytes| == |s| / 2
  {
    if s == "" then []
    else [HexValue(s[0]) * 16 + HexValue(s[1])] + Hex2Bin(s[2..])
  }

  /** `bin2hex` loses nothing: decoding the token gives back the bytes. */
  lemma {:induction false} HexRoundTrip(bytes: seq<Byte>)
    ensures Hex2Bin(Bin2Hex(bytes)) == bytes
  {
    if bytes != [] {
      var s := Bin2Hex(bytes);
      var b := bytes[0];
      assert s[0] == HexDigit(b / 16) && s[1] == HexDigit(b % 16);
      assert HexValue(s[0]) == b / 16;
      assert HexValue(s[1]) == b % 16;
      assert s[2..] == Bin2Hex(bytes[1..]);
      HexRoundTrip(bytes[1..]);
      assert bytes == [b] + bytes[1..];
    }
  }

  /** Different byte strings give different tokens. */
  lemma Bin2HexInjective(a: seq<Byte>, b: seq<Byte>)
    requires Bin2Hex(a) == Bin2Hex(b)
    ensures a == b
  {
    HexRoundTrip(a);
    HexRoundTrip(b);
  }
}

=== FILE: main_utils.dfy ===
/** `truncateText`, the card helper that shortens descriptions. JavaScript
    strings are sequences of UTF-16 code units, and `length` and `substring`
    count those, so the text is modelled as code units: a cut may fall
    between the two halves of a surrogate pair. */
module MainUtils {

  newtype CodeUnit = x: int | 0 <= x < 0x1_0000

  /** "..." in code units. */
  const Ellipsis: seq<CodeUnit> := [46, 46, 46]

  /** `substring(0, n)`'s end index for a text longer than `n`: a negative
      bound counts as 0. */
  function CutAt(n: int): nat {
    if n < 0 then 0 else n
  }

  /** `text.length > n ? text.substring(0, n) + '...' : text`. */
  function TruncateText(text: seq<CodeUnit>, n: int): (r: seq<CodeUnit>)
    ensures |text| <= n ==> r == text
    ensures |text| > n ==> |r| == CutAt(n) + 3 && r[..CutAt(n)] == text[..CutAt(n)] && r[CutAt(n)..] == Ellipsis
    ensures var m := if |text| <= n then |text| else CutAt(n);
            m <= |r| && r[..m] == text[..m]
    ensures |r| <= |text| + 3
  {
    if |text| > n then text[..CutAt(n)] + Ellipsis else text
  }

  /** Truncating a result again with the same bound changes nothing. */
  lemma TruncateIdempotent(text: seq<CodeUnit>, n: int)
    ensures TruncateText(TruncateText(text, n), n) == TruncateText(text, n)
  {
    var r := TruncateText(text, n);
    if |text| > n {
      // a cut result is longer than the bound, so it is cut again at the
      // same place, which keeps the same prefix and ellipsis
      assert |r| > n;
      assert r[..CutAt(n)] + Ellipsis == r;
    }
  }
}

=== FILE: marketplace.dfy ===
/** The browser-side marketplace page: filtering and sorting the product
    list, the price and category shown on a card, the sidebar's top items,
    and the locally stored messages with their unread count. */
module Marketplace {
  import opened Wrappers
  import opened Seqs
  import opened StableSort
  import AuthClient

  /** A product of the client list. Missing numeric fields are `None`. */
  datatype Product = Product(
    id: int,
    title: string,
    category: string,
    price: Option<int>,
    originalPrice: Option<int>,
    sellerId: int,
    postedDate: int,
    views: Option<int>)

  /** JavaScript's `x || 0` on an optional number. */
  function OrZero(x: Option<int>): int {
    x.GetOr(0)
  }

  /** JavaScript truthiness of an optional number: present and not zero. */
  predicate Truthy(x: Option<int>) {
    x.Some? && x.value != 0
  }

  function InCategory(category: string): Product -> bool {
    (p: Product) => p.category == category
  }

  /** The page's shared state: the product list and the current filter and
      sort selections. */
  datatype Listing = Listing(products: seq<Product>, currentFilter: string, currentSort: string)

  /** What a render shows, and the shared product list afterwards. */
  datatype Rendered = Rendered(shown: seq<Product>, products: seq<Product>)

  /** The products the current filter selects, in list order: a product
      is shown exactly when it is listed and the filter is 'all' or its
      category. */
  function Selected(st: Listing): (r: seq<Product>)
    ensures |r| <= |st.products|
    ensures forall p :: p in r <==> p in st.products && (st.currentFilter == "all" || p.category == st.currentFilter)
  {
    if st.currentFilter != "all" then Filter(st.products, InCategory(st.currentFilter)) else st.products
  }

  /** The comparator each sort option passes to `Array.prototype.sort`, as
      an ascending rank; `None` for a value no case matches. */
  function SortRank(sort: string): Option<Product -> int> {
    if sort == "price-low" then Some((p: Product) => OrZero(p.price))
    else if sort == "price-high" then Some((p: Product) => -OrZero(p.price))
    else if sort == "newest" then Some((p: Product) => -p.postedDate)
    else if sort == "popular" then Some((p: Product) => -OrZero(p.views))
    else None
  }

  /** `applyFiltersAndSort`. The shown list is the selected products,
      reordered by the sort option when it is one of the four. With the
      filter 'all' the array sorted is the shared list itself, so the sort
      also reorders the page's products; with a category filter it sorts a
      copy and the shared list is untouched. */
  function ApplyFiltersAndSort(st: Listing): (r: Rendered)
    ensures multiset(r.shown) == multiset(Selected(st))
    ensures SortRank(st.currentSort).None? ==> r.shown == Selected(st) && r.products == st.products
    ensures st.currentFilter != "all" ==> r.products == st.products
    ensures st.currentFilter == "all" ==> r.products == r.shown
    ensures st.currentSort == "price-low" ==>
              forall i, j :: 0 <= i < j < |r.shown| ==> OrZero(r.shown[i].price) <= OrZero(r.shown[j].price)
    ensures st.currentSort == "price-high" ==>
              forall i, j :: 0 <= i < j < |r.shown| ==> OrZero(r.shown[i].price) >= OrZero(r.shown[j].price)
    ensures st.currentSort == "newest" ==>
              forall i, j :: 0 <= i < j < |r.shown| ==> r.shown[i].postedDate >= r.shown[j].postedDate
    ensures st.currentSort == "popular" ==>
              forall i, j :: 0 <= i < j < |r.shown| ==> OrZero(r.shown[i].views) >= OrZero(r.shown[j].views)
  {
    var filtered := Selected(st);
    match SortRank(st.currentSort)
    case None => Rendered(filtered, st.products)
    case Some(rank) =>
      var sorted := Sort(filtered, rank);
      assert forall i, j :: 0 <= i < j < |sorted| ==> rank(sorted[i]) <= rank(sorted[j]);
      Rendered(sorted, if st.currentFilter == "all" then sorted else st.products)
  }

  /** The sort is stable: products that tie under the chosen option keep
      the order they had in the selection. */
  lemma TiesKeepListOrder(st: Listing, k: int)
    requires SortRank(st.currentSort).Some?
    ensures var rank := SortRank(st.currentSort).value;
            WithRank(ApplyFiltersAndSort(st).shown, rank, k) == WithRank(Selected(st), rank, k)
  {
    SortIsStable(Selected(st), SortRank(st.currentSort).value, k);
  }

  /** How a card shows its price. */
  datatype PriceTag =
    | FreeTag
    | SaleTag(current: Option<int>, original: int)
    | WeeklyTag(current: Option<int>)
    | PlainTag(current: Option<int>)

  /** The price part of `createProductCard`: 'free' shows FREE whatever the
      price; 'buy' with a truthy original price shows both prices; 'rent'
      shows a weekly price; anything else the plain price, so 'sell' never
      shows an original price. */
  function PriceDisplay(p: Product): (t: PriceTag)
    ensures t.FreeTag? <==> p.category == "free"
    ensures t.SaleTag? <==> p.category == "buy" && Truthy(p.originalPrice)
    ensures t.WeeklyTag? <==> p.category == "rent"
    ensures t.SaleTag? ==> t.current == p.price && t.original == p.originalPrice.value
    ensures (t.WeeklyTag? || t.PlainTag?) ==> t.current == p.price
    ensures p.category == "sell" ==> t == PlainTag(p.price)
  {
    if p.category == "free" then FreeTag
    else if Truthy(p.originalPrice) && p.category == "buy" then SaleTag(p.price, p.originalPrice.value)
    else if p.category == "rent" then WeeklyTag(p.price)
    else PlainTag(p.price)
  }

  /** The names an object literal inherits from `Object.prototype`: a
      property lookup with one of them finds a function, or for
      `__proto__` the prototype itself, instead of `undefined`. */
  const ObjectPrototypeMembers: set<string> := {
    "constructor", "hasOwnProperty", "isPrototypeOf", "propertyIsEnumerable",
    "toLocaleString", "toString", "valueOf", "__proto__",
    "__defineGetter__", "__defineSetter__", "__lookupGetter__", "__lookupSetter__"}

  /** What the label lookup finds: one of the literal's own labels, an
      inherited member of `Object.prototype`, or nothing (`undefined`). */
  datatype CategoryText = Label(text: string) | InheritedMember(member: string) | NoLabel

  /** The category label lookup `{buy: …, sell: …, rent: …, free: …}[category]`. */
  function CategoryLabel(category: string): (name: CategoryText)
    ensures name == Label("For Sale") <==> category == "buy" || category == "sell"
    ensures name == Label("For Rent") <==> category == "rent"
    ensures name == Label("Free") <==> category == "free"
    ensures name.InheritedMember? <==> category in ObjectPrototypeMembers
    ensures name.InheritedMember? ==> name.member == category
    ensures name == NoLabel <==> category !in {"buy", "sell", "rent", "free"} && category !in ObjectPrototypeMembers
  {
    if category == "buy" || category == "sell" then Label("For Sale")
    else if category == "rent" then Label("For Rent")
    else if category == "free" then Label("Free")
    else if category in ObjectPrototypeMembers then InheritedMember(category)
    else NoLabel
  }

  /** `loadTopItems`: the first three products, or all of them when fewer. */
  function TopItems(products: seq<Product>): (top: seq<Product>)
    ensures |top| <= 3
    ensures |top| == if |products| < 3 then |products| else 3
    ensures top == products[..|top|]
  {
    Take(products, 3)
  }

  /** A message of the locally stored list. */
  datatype LocalMessage = LocalMessage(
    id: int,
    senderId: int,
    receiverId: int,
    productId: int,
    text: string,
    timestamp: string,
    read: bool)

  function UnreadFor(me: int): LocalMessage -> bool {
    (m: LocalMessage) => m.receiverId == me && !m.read
  }

  /** The notification badge: messages to `me` not yet read. */
  function UnreadCount(messages: seq<LocalMessage>, me: int): nat {
    Count(messages, UnreadFor(me))
  }

  function HasId(id: int): Product -> bool {
    (p: Product) => p.id == id
  }

  /** `products.find(p => p.id === id)`: the first product with the id. */
  function FindProduct(products: seq<Product>, id: int): (r: Option<Product>)
    ensures r.None? <==> forall k :: 0 <= k < |products| ==> products[k].id != id
    ensures r.Some? ==> exists k :: 0 <= k < |products| && r.value == products[k]
    ensures r.Some? ==> r.value.id == id
  {
    match FirstIndex(products, HasId(id))
    case None => None
    case Some(k) => Some(products[k])
  }

  /** The outcome of a script step that may throw a `TypeError`. */
  datatype Sent = Thrown | Stored(messages: seq<LocalMessage>, unread: nat)

  /** `sendMessage`: appends one unread message from the signed-in user to
      the product's seller, stamped with `now` as its id, and recounts the
      badge. Without a signed-in user or a product with that id, reading a
      field of `null`/`undefined` throws before anything is stored. */
  function SendMessage(products: seq<Product>, currentUser: Option<AuthClient.SessionUser>, messages: seq<LocalMessage>,
                       productId: int, text: string, now: int, isoTime: string): (r: Sent)
    ensures r.Stored? <==> currentUser.Some? && FindProduct(products, productId).Some?
    ensures r.Stored? ==>
              && |r.messages| == |messages| + 1
              && r.messages[..|messages|] == messages
              && var m := r.messages[|messages|];
              && !m.read
              && m.senderId == currentUser.value.id
              && m.receiverId == FindProduct(products, productId).value.sellerId
              && m.productId == productId && m.text == text && m.id == now
              && r.unread == UnreadCount(r.messages, currentUser.value.id)
  {
    match (currentUser, FindProduct(products, productId))
    case (Some(me), Some(p)) =>
      var m := LocalMessage(now, me.id, p.sellerId, productId, text, isoTime, false);
      var all := messages + [m];
      assert all[..|messages|] == messages;
      Stored(all, UnreadCount(all, me.id))
    case _ => Thrown
  }

  /** Sending raises the sender's own badge only when they message
      themselves. */
  lemma SendUnreadCount(products: seq<Product>, me: AuthClient.SessionUser, messages: seq<LocalMessage>,
                        productId: int, text: string, now: int, isoTime: string)
    requires FindProduct(products, productId).Some?
    ensures var r := SendMessage(products, Some(me), messages, productId, text, now, isoTime);
            r.unread == UnreadCount(messages, me.id)
                        + (if FindProduct(products, productId).value.sellerId == me.id then 1 else 0)
  {
    var r := SendMessage(products, Some(me), messages, productId, text, now, isoTime);
    assert r.messages == messages + [r.messages[|messages|]];
    FilterAppend(messages, [r.messages[|messages|]], UnreadFor(me.id));
  }

  function MessageId(id: int): LocalMessage -> bool {
    (m: LocalMessage) => m.id == id
  }

  datatype ReadOutcome = ReadOutcome(messages: seq<LocalMessage>, unread: Option<nat>)

  /** `readMessage`: the first message with the id is marked read and the
      badge recounted; with no such message nothing happens. The list is
      saved before the recount, which throws when nobody is signed in. */
  function ReadMessage(messages: seq<LocalMessage>, messageId: int, currentUser: Option<AuthClient.SessionUser>): (r: ReadOutcome)
    ensures |r.messages| == |messages|
    ensures FirstIndex(messages, MessageId(messageId)).None? ==> r == ReadOutcome(messages, None)
    ensures FirstIndex(messages, MessageId(messageId)).Some? ==>
              var k := FirstIndex(messages, MessageId(messageId)).value;
              && r.messages[k] == messages[k].(read := true)
              && (forall j :: 0 <= j < |messages| && j != k ==> r.messages[j] == messages[j])
              && (currentUser.Some? <==> r.unread.Some?)
              && (currentUser.Some? ==> r.unread.value == UnreadCount(r.messages, currentUser.value.id))
  {
    match FirstIndex(messages, MessageId(messageId))
    case None => ReadOutcome(messages, None)
    case Some(k) =>
      var updated := messages[k := messages[k].(read := true)];
      ReadOutcome(updated, match currentUser
                           case Some(me) => Some(UnreadCount(updated, me.id))
                           case None => None)
  }

  /** Reading lowers the badge by one exactly when the message read was an
      unread one addressed to the reader. */
  lemma ReadLowersUnread(messages: seq<LocalMessage>, messageId: int, me: AuthClient.SessionUser)
    requires FirstIndex(messages, MessageId(messageId)).Some?
    ensures var k := FirstIndex(messages, MessageId(messageId)).value;
            ReadMessage(messages, messageId, Some(me)).unread.value
              == UnreadCount(messages, me.id) - (if UnreadFor(me.id)(messages[k]) then 1 else 0)
  {
    var k := FirstIndex(messages, MessageId(messageId)).value;
    CountUpdate(messages, k, messages[k].(read := true), UnreadFor(me.id));
  }
}

=== FILE: numeric.dfy ===
/** Reading integers out of text, as PHP's `intval` and JavaScript's
    `parseInt(s)` do with a decimal string, and writing them back. */
module Numeric {
  import opened Wrappers

  /** ASCII white space skipped before a number: space, tab, newline,
      vertical tab, form feed, carriage return. */
  predicate IsNumberSpace(c: char) {
    c == ' ' || c == '\t' || c == '\n' || c == '\U{B}' || c == '\U{C}' || c == '\r'
  }

  predicate IsDigit(c: char) {
    '0' <= c <= '9'
  }

  predicate AllDigits(s: string) {
    forall k :: 0 <= k < |s| ==> IsDigit(s[k])
  }

  /** `s` without its leading white space. */
  function SkipSpace(s: string): (r: string)
    ensures |r| <= |s| && r == s[|s| - |r|..]
    ensures r == [] || !IsNumberSpace(r[0])
  {
    if s != [] && IsNumberSpace(s[0]) then SkipSpace(s[1..]) else s
  }

  /** How many digits `s` starts with. */
  function DigitRun(s: string): (n: nat)
    ensures n <= |s|
    ensures AllDigits(s[..n])
    ensures n < |s| ==> !IsDigit(s[n])
  {
    if s != [] && IsDigit(s[0]) then
      var n := DigitRun(s[1..]);
      assert s[..n + 1] == [s[0]] + s[1..][..n];
      n + 1
    else 0
  }

  /** The value of a run of decimal digits, most significant first. */
  function DigitsValue(d: string): nat
    requires AllDigits(d)
  {
    if d == [] then 0
    else DigitsValue(d[..|d| - 1]) * 10 + (d[|d| - 1] as int - '0' as int)
  }

  /** The value of the digits `u` starts with, if it starts with one. */
  function UnsignedPrefix(u: string): Option<nat> {
    var n := DigitRun(u);
    if n == 0 then None else Some(DigitsValue(u[..n]))
  }

  /** An optional sign followed by digits, at the front of `t`. */
  function SignedPrefix(t: string): Option<int> {
    if t != [] && t[0] == '-' then
      match UnsignedPrefix(t[1..])
      case None => None
      case Some(v) => Some(-(v as int))
    else if t != [] && t[0] == '+' then
      match UnsignedPrefix(t[1..])
      case None => None
      case Some(v) => Some(v)
    else
      match UnsignedPrefix(t)
      case None => None
      case Some(v) => Some(v)
  }

  /** The integer at the front of `s`: optional white space, an optional
      sign, then at least one digit; `None` when there is no digit. PHP's
      `intval` reads `None` as 0 and JavaScript's `parseInt` as `NaN`. */
  function LeadingInt(s: string): Option<int> {
    SignedPrefix(SkipSpace(s))
  }

  /** PHP's `intval` of a string. */
  function Intval(s: string): int {
    LeadingInt(s).GetOr(0)
  }

  function DigitChar(d: nat): (c: char)
    requires d < 10
    ensures IsDigit(c) && c as int - '0' as int == d
  {
    ('0' as int + d) as char
  }

  /** The decimal text of a natural number, without leading zeros. */
  function ShowNat(n: nat): (s: string)
    ensures |s| >= 1 && AllDigits(s)
    ensures DigitsValue(s) == n
  {
    if n < 10 then [DigitChar(n)]
    else
      var s := ShowNat(n / 10) + [DigitChar(n % 10)];
      assert s[..|s| - 1] == ShowNat(n / 10);
      s
  }

  /** The decimal text of an integer, as PHP's `echo` or JSON writes it. */
  function ShowInt(n: int): string {
    if n < 0 then "-" + ShowNat(-n) else ShowNat(n)
  }

  /** A string made only of digits reads as its value. */
  lemma {:induction false} UnsignedOfDigits(d: string)
    requires |d| >= 1 && AllDigits(d)
    ensures UnsignedPrefix(d) == Some(DigitsValue(d))
  {
    DigitRunOfDigits(d);
    assert d[..|d|] == d;
  }

  /** Reading back a written integer gives the integer: a number sent as
      text arrives as the same number. */
  lemma {:induction false} ShowIntRoundTrip(n: int)
    ensures LeadingInt(ShowInt(n)) == Some(n)
    ensures Intval(ShowInt(n)) == n
  {
    var d := ShowNat(if n < 0 then -n else n);
    UnsignedOfDigits(d);
    if n < 0 {
      NegativeRoundTrip(d);
    } else {
      PositiveRoundTrip(d);
    }
  }

  lemma {:induction false} NegativeRoundTrip(d: string)
    requires |d| >= 1 && AllDigits(d)
    requires UnsignedPrefix(d) == Some(DigitsValue(d))
    ensures LeadingInt("-" + d) == Some(-(DigitsValue(d) as int))
  {
    var s := "-" + d;
    assert s[0] == '-' && s[1..] == d;
    assert !IsNumberSpace(s[0]);
    assert SkipSpace(s) == s;
    assert SignedPrefix(s) == Some(-(DigitsValue(d) as int));
  }

  lemma {:induction false} PositiveRoundTrip(d: string)
    requires |d| >= 1 && AllDigits(d)
    requires UnsignedPrefix(d) == Some(DigitsValue(d))
    ensures LeadingInt(d) == Some(DigitsValue(d) as int)
  {
    assert IsDigit(d[0]);
    assert !IsNumberSpace(d[0]) && d[0] != '-' && d[0] != '+';
    assert SkipSpace(d) == d;
    assert SignedPrefix(d) == Some(DigitsValue(d) as int);
  }

  lemma {:induction false} DigitRunOfDigits(d: string)
    requires AllDigits(d)
    ensures DigitRun(d) == |d|
  {
    if d != [] {
      DigitRunOfDigits(d[1..]);
    }
  }
}

=== FILE: seqs.dfy ===
/** Order-preserving operations on sequences, used for every list the
    application filters or counts. */
module Seqs {
  import opened Wrappers

  /** The elements of `s` that satisfy `keep`, in their original order
      (JavaScript's `Array.prototype.filter`, SQL's `WHERE`). */
  function Filter<T>(s: seq<T>, keep: T -> bool): (r: seq<T>)
    ensures |r| <= |s|
    ensures forall k :: 0 <= k < |r| ==> r[k] in s && keep(r[k])
    ensures forall k :: 0 <= k < |s| && keep(s[k]) ==> s[k] in r
  {
    if s == [] then []
    else if keep(s[0]) then [s[0]] + Filter(s[1..], keep)
    else Filter(s[1..], keep)
  }

  /** Whatever is in a filtered sequence came from the input and passes. */
  lemma FilterMember<T>(s: seq<T>, keep: T -> bool, x: T)
    requires x in Filter(s, keep)
    ensures x in s && keep(x)
  {
    var r := Filter(s, keep);
    var k :| 0 <= k < |r| && r[k] == x;
  }

  /** Whatever passes is in the filtered sequence. */
  lemma FilterKeeps<T>(s: seq<T>, keep: T -> bool, x: T)
    requires x in s && keep(x)
    ensures x in Filter(s, keep)
  {
    var k :| 0 <= k < |s| && s[k] == x;
  }

  /** Filtering distributes over concatenation. */
  lemma {:induction false} FilterAppend<T>(s: seq<T>, t: seq<T>, keep: T -> bool)
    ensures Filter(s + t, keep) == Filter(s, keep) + Filter(t, keep)
  {
    if s == [] {
      assert s + t == t;
    } else {
      assert (s + t)[0] == s[0];
      assert (s + t)[1..] == s[1..] + t;
      FilterAppend(s[1..], t, keep);
    }
  }

  /** Filtering keeps every element exactly as often as it occurs, when it is kept. */
  lemma {:induction false} FilterMultiset<T>(s: seq<T>, keep: T -> bool, x: T)
    ensures multiset(Filter(s, keep))[x] == (if keep(x) then multiset(s)[x] else 0)
  {
    if s != [] {
      assert s == [s[0]] + s[1..];
      FilterMultiset(s[1..], keep, x);
    }
  }

  /** A filter that keeps everything is the identity. */
  lemma {:induction false} FilterAll<T>(s: seq<T>, keep: T -> bool)
    requires forall k :: 0 <= k < |s| ==> keep(s[k])
    ensures Filter(s, keep) == s
  {
    if s != [] {
      FilterAll(s[1..], keep);
    }
  }

  /** A filter that keeps nothing gives the empty sequence. */
  lemma {:induction false} FilterNone<T>(s: seq<T>, keep: T -> bool)
    requires forall k :: 0 <= k < |s| ==> !keep(s[k])
    ensures Filter(s, keep) == []
  {
    if s != [] {
      FilterNone(s[1..], keep);
    }
  }

  /** The number of elements of `s` that satisfy `keep`. */
  function Count<T>(s: seq<T>, keep: T -> bool): (n: nat)
    ensures n <= |s|
  {
    |Filter(s, keep)|
  }

  /** The first `n` elements, or all of them when there are fewer
      (JavaScript's `slice(0, n)`, SQL's `LIMIT n`). */
  function Take<T>(s: seq<T>, n: int): (r: seq<T>)
    ensures |r| == if n <= 0 then 0 else if n < |s| then n else |s|
    ensures r == s[..|r|]
  {
    if n <= 0 then [] else if n < |s| then s[..n] else s
  }

  /** The elements after the first `n` (SQL's `OFFSET n`). */
  function Drop<T>(s: seq<T>, n: nat): (r: seq<T>)
    ensures n <= |s| ==> r == s[n..]
    ensures n > |s| ==> r == []
  {
    if n <= |s| then s[n..] else []
  }

  /** Replacing one element changes the count by what the old and new
      elements contribute. */
  lemma {:induction false} CountUpdate<T>(s: seq<T>, k: nat, x: T, keep: T -> bool)
    requires k < |s|
    ensures Count(s[k := x], keep) + (if keep(s[k]) then 1 else 0)
         == Count(s, keep) + (if keep(x) then 1 else 0)
  {
    if k == 0 {
      assert s[k := x] == [x] + s[1..];
      assert s == [s[0]] + s[1..];
      FilterAppend([x], s[1..], keep);
      FilterAppend([s[0]], s[1..], keep);
    } else {
      assert s[k := x] == [s[0]] + s[1..][k - 1 := x];
      assert s == [s[0]] + s[1..];
      CountUpdate(s[1..], k - 1, x, keep);
      FilterAppend([s[0]], s[1..][k - 1 := x], keep);
      FilterAppend([s[0]], s[1..], keep);
    }
  }

  /** The index of the first element satisfying `p`, as JavaScript's
      `findIndex`, with `None` for -1. */
  function FirstIndex<T>(s: seq<T>, p: T -> bool): (r: Option<nat>)
    ensures r.None? <==> forall k :: 0 <= k < |s| ==> !p(s[k])
    ensures r.Some? ==> r.value < |s| && p(s[r.value])
                        && forall k :: 0 <= k < r.value ==> !p(s[k])
  {
    if s == [] then None
    else if p(s[0]) then Some(0)
    else
      match FirstIndex(s[1..], p)
      case None => None
      case Some(k) => Some(k + 1)
  }
}

=== FILE: stable_sort.dfy ===
/** A stable sort by an integer rank. JavaScript's `Array.prototype.sort`
    is stable, and a comparator `(a, b) => rank(a) - rank(b)` orders by
    ascending rank; a descending order is an ascending order on the negated
    key. The same sort stands for SQL's `ORDER BY`, with rows of equal key
    kept in store order. */
module StableSort {
  import opened Seqs

  /** Ranks never decrease from left to right. */
  ghost predicate SortedBy<T>(s: seq<T>, rank: T -> int) {
    forall i, j :: 0 <= i < j < |s| ==> rank(s[i]) <= rank(s[j])
  }

  /** The elements of `s` whose rank is `k`, in order. */
  function WithRank<T>(s: seq<T>, rank: T -> int, k: int): seq<T> {
    if s == [] then []
    else if rank(s[0]) == k then [s[0]] + WithRank(s[1..], rank, k)
    else WithRank(s[1..], rank, k)
  }

  /** Inserts `x` in front of the first element whose rank is at least its own. */
  function Insert<T>(x: T, s: seq<T>, rank: T -> int): (r: seq<T>)
    requires SortedBy(s, rank)
    ensures SortedBy(r, rank)
    ensures multiset(r) == multiset(s) + multiset{x}
  {
    if s == [] || rank(x) <= rank(s[0]) then [x] + s
    else
      var rest := Insert(x, s[1..], rank);
      assert s == [s[0]] + s[1..];
      ConsSorted(s[0], x, s[1..], rest, rank);
      assert multiset([s[0]] + rest) == multiset{s[0]} + multiset(rest);
      [s[0]] + rest
  }

  /** Putting `y` in front of a sorted `rest` built from `x` and the sorted
      tail of `[y] + tail` keeps it sorted. */
  lemma ConsSorted<T>(y: T, x: T, tail: seq<T>, rest: seq<T>, rank: T -> int)
    requires SortedBy([y] + tail, rank) && rank(y) < rank(x)
    requires SortedBy(rest, rank)
    requires multiset(rest) == multiset(tail) + multiset{x}
    ensures SortedBy([y] + rest, rank)
  {
    forall k | 0 <= k < |rest|
      ensures rank(y) <= rank(rest[k])
    {
      assert rest[k] in multiset(rest);
      if rest[k] == x {
        assert rank(y) < rank(rest[k]);
      } else {
        assert rest[k] in multiset(tail);
        assert rest[k] in tail;
        var j :| 0 <= j < |tail| && tail[j] == rest[k];
        var c := [y] + tail;
        assert c[0] == y && c[j + 1] == tail[j];
        assert rank(c[0]) <= rank(c[j + 1]);
      }
    }
    var r := [y] + rest;
    forall i, j | 0 <= i < j < |r|
      ensures rank(r[i]) <= rank(r[j])
    {
      if i > 0 {
        assert r[i] == rest[i - 1] && r[j] == rest[j - 1];
      } else {
        assert r[j] == rest[j - 1];
      }
    }
  }

  /** Sorts `s` by ascending rank, keeping elements of equal rank in their
      original order. */
  function Sort<T>(s: seq<T>, rank: T -> int): (r: seq<T>)
    ensures SortedBy(r, rank)
    ensures multiset(r) == multiset(s)
    ensures |r| == |s|
  {
    if s == [] then []
    else
      assert s == [s[0]] + s[1..];
      Insert(s[0], Sort(s[1..], rank), rank)
  }

  /** Inserting `x` adds it in front of every element of its own rank. */
  lemma {:induction false} InsertWithRank<T>(x: T, s: seq<T>, rank: T -> int, k: int)
    requires SortedBy(s, rank)
    ensures WithRank(Insert(x, s, rank), rank, k)
         == (if rank(x) == k then [x] else []) + WithRank(s, rank, k)
  {
    if s == [] || rank(x) <= rank(s[0]) {
      var r := [x] + s;
      assert r[0] == x && r[1..] == s;
      if rank(x) == k && s != [] && rank(s[0]) != k {
        assert rank(x) < rank(s[0]);
      }
    } else {
      var rest := Insert(x, s[1..], rank);
      var r := [s[0]] + rest;
      assert r[0] == s[0] && r[1..] == rest;
      InsertWithRank(x, s[1..], rank, k);
    }
  }

  /** Stability: among elements of any one rank, the sort keeps the input order. */
  lemma {:induction false} SortIsStable<T>(s: seq<T>, rank: T -> int, k: int)
    ensures WithRank(Sort(s, rank), rank, k) == WithRank(s, rank, k)
  {
    if s != [] {
      SortIsStable(s[1..], rank, k);
      InsertWithRank(s[0], Sort(s[1..], rank), rank, k);
    }
  }

  /** The rows `LIMIT limit OFFSET offset` keeps from a sorted copy of
      `matching`: as many as are left after the offset, up to the limit,
      all of them members of `matching`, and the whole copy on a first
      window that has room. */
  lemma WindowShape<T>(matching: seq<T>, sorted: seq<T>, offset: nat, limit: nat)
    requires multiset(sorted) == multiset(matching)
    ensures var w := Take(Drop(sorted, offset), limit);
            && |w| == (if |matching| <= offset then 0
                       else if limit < |matching| - offset then limit
                       else |matching| - offset)
            && (forall k :: 0 <= k < |w| ==> w[k] in matching)
            && (offset == 0 && |matching| <= limit ==> w == sorted)
  {
    var w := Take(Drop(sorted, offset), limit);
    assert |sorted| == |matching| by {
      assert |multiset(sorted)| == |multiset(matching)|;
    }
    forall k | 0 <= k < |w| ensures w[k] in matching {
      assert w[k] == sorted[offset + k];
      assert sorted[offset + k] in multiset(sorted);
    }
  }

  /** A window of a sorted sequence is sorted. */
  lemma WindowSorted<T>(sorted: seq<T>, rank: T -> int, offset: nat, limit: nat)
    requires SortedBy(sorted, rank)
    ensures SortedBy(Take(Drop(sorted, offset), limit), rank)
  {
    var w := Take(Drop(sorted, offset), limit);
    forall i, j | 0 <= i < j < |w| ensures rank(w[i]) <= rank(w[j]) {
      assert w[i] == sorted[offset + i] && w[j] == sorted[offset + j];
    }
  }

  /** An element of `matching` that did not make it into a window of its
      sorted copy ranks no later than the window's first row or no earlier
      than its last; with offset 0, it ranks no earlier than the last. */
  lemma WindowLeftOff<T>(matching: seq<T>, sorted: seq<T>, rank: T -> int, offset: nat, limit: nat, x: T)
    requires multiset(sorted) == multiset(matching)
    requires SortedBy(sorted, rank)
    requires x in matching
    requires x !in Take(Drop(sorted, offset), limit)
    requires |Take(Drop(sorted, offset), limit)| > 0
    ensures var w := Take(Drop(sorted, offset), limit);
            && (rank(x) <= rank(w[0]) || rank(w[|w| - 1]) <= rank(x))
            && (offset == 0 ==> rank(w[|w| - 1]) <= rank(x))
  {
    var w := Take(Drop(sorted, offset), limit);
    assert x in multiset(sorted);
    var j :| 0 <= j < |sorted| && sorted[j] == x;
    assert forall k :: 0 <= k < |w| ==> w[k] != x;
    assert j < offset || offset + |w| <= j;
    assert w[0] == sorted[offset] && w[|w| - 1] == sorted[offset + |w| - 1];
  }

  /** A window holds no element more often than the sequence it is cut from. */
  lemma WindowWithin<T>(s: seq<T>, offset: nat, limit: int)
    ensures multiset(Take(Drop(s, offset), limit)) <= multiset(s)
  {
    var d := Drop(s, offset);
    var w := Take(d, limit);
    assert d == w + d[|w|..];
    assert multiset(d) == multiset(w) + multiset(d[|w|..]);
    if offset <= |s| {
      assert s == s[..offset] + d;
      assert multiset(s) == multiset(s[..offset]) + multiset(d);
    }
  }

  /** Two sorted arrangements of the same elements are the same sequence
      when no two different elements share a rank: the order of a sort is
      then fully determined. */
  lemma {:induction false} SortedPermutationsEqual<T>(a: seq<T>, b: seq<T>, rank: T -> int)
    requires multiset(a) == multiset(b)
    requires SortedBy(a, rank) && SortedBy(b, rank)
    requires forall x, y :: x in a && y in a && rank(x) == rank(y) ==> x == y
    ensures a == b
  {
    assert |a| == |b| by {
      assert |multiset(a)| == |multiset(b)|;
    }
    if a != [] {
      SortedHeadsEqual(a, b, rank);
      SameTails(a, b);
      assert forall x :: x in a[1..] ==> x in a;
      SortedTail(a, rank);
      SortedTail(b, rank);
      SortedPermutationsEqual(a[1..], b[1..], rank);
    }
  }

  /** Two sorted arrangements of the same elements start with the same
      element when no two different elements share a rank. */
  lemma SortedHeadsEqual<T>(a: seq<T>, b: seq<T>, rank: T -> int)
    requires multiset(a) == multiset(b) && |a| > 0 && |b| > 0
    requires SortedBy(a, rank) && SortedBy(b, rank)
    requires forall x, y :: x in a && y in a && rank(x) == rank(y) ==> x == y
    ensures a[0] == b[0]
  {
    assert b[0] in multiset(a);
    var i :| 0 <= i < |a| && a[i] == b[0];
    assert rank(a[0]) <= rank(a[i]);
    assert a[0] in multiset(b);
    var j :| 0 <= j < |b| && b[j] == a[0];
    assert rank(b[0]) <= rank(b[j]);
  }

  /** Two arrangements of the same elements with the same head have tails
      of the same elements. */
  lemma SameTails<T>(a: seq<T>, b: seq<T>)
    requires multiset(a) == multiset(b) && |a| > 0 && |b| > 0 && a[0] == b[0]
    ensures multiset(a[1..]) == multiset(b[1..])
  {
    assert a == [a[0]] + a[1..] && b == [b[0]] + b[1..];
    assert multiset(a) == multiset{a[0]} + multiset(a[1..]);
    assert multiset(b) == multiset{b[0]} + multiset(b[1..]);
    forall x ensures multiset(a[1..])[x] == multiset(b[1..])[x] {
      assert multiset(a)[x] == multiset{a[0]}[x] + multiset(a[1..])[x];
      assert multiset(b)[x] == multiset{b[0]}[x] + multiset(b[1..])[x];
    }
  }

  /** The tail of a sorted sequence is sorted. */
  lemma SortedTail<T>(s: seq<T>, rank: T -> int)
    requires SortedBy(s, rank) && |s| > 0
    ensures SortedBy(s[1..], rank)
  {
    forall i, j | 0 <= i < j < |s| - 1 ensures rank(s[1..][i]) <= rank(s[1..][j]) {
      assert s[1..][i] == s[i + 1] && s[1..][j] == s[j + 1];
    }
  }
}

=== FILE: store.dfy ===
/** The relational store the API reads and writes, as immutable rows. Each
    table is a sequence in insertion order; auto-increment counters hand out
    fresh ids. */
module Store {
  import opened Wrappers

  /** Seconds, as `NOW()` and `time()` give them; only their order matters. */
  type Timestamp = int

  /** An ideal one-way password hash: the random salt and the password it
      was computed from. Nothing reads `secret` except `PasswordVerify`. */
  datatype PasswordHash = PasswordHash(salt: nat, secret: string)

  /** PHP's `password_hash($password, PASSWORD_BCRYPT)` with the salt given. */
  function HashPassword(password: string, salt: nat): (h: PasswordHash)
    ensures PasswordVerify(password, h)
    ensures forall other :: PasswordVerify(other, h) ==> other == password
  {
    PasswordHash(salt, password)
  }

  /** PHP's `password_verify`. */
  predicate PasswordVerify(password: string, h: PasswordHash) {
    h.secret == password
  }

  /** A row of `users`. */
  datatype User = User(
    id: int,
    name: string,
    personalEmail: string,
    uniEmail: string,
    passwordHash: PasswordHash,
    isVerified: bool,
    verificationToken: string,
    verificationDate: Option<Timestamp>,
    roleId: int,
    avatarColor: string)

  /** A row of `marketplace_items`. The price is kept as the text the
      client sent. */
  datatype Item = Item(
    id: int,
    ownerId: int,
    title: string,
    description: string,
    category: string,
    itemType: string,
    price: string,
    condition: string,
    dormLocation: string,
    isActive: bool,
    createdAt: Timestamp)

  /** A row of `direct_messages`; `itemId` is NULL when the message is not
      about an item. */
  datatype Message = Message(
    id: int,
    senderId: int,
    receiverId: int,
    itemId: Option<int>,
    content: string,
    isRead: bool,
    createdAt: Timestamp,
    readAt: Option<Timestamp>)

  /** The part of a row of `rentals` the reminder job touches. */
  datatype Rental = Rental(id: int, reminderSent: bool)

  /** A row of `upcoming_reminders_view`; the view's definition lives in the
      database schema, so its rows are an input. */
  datatype ReminderRow = ReminderRow(rentalId: int, uniEmail: string, title: string, dueDate: string)

  datatype Db = Db(
    users: seq<User>,
    items: seq<Item>,
    messages: seq<Message>,
    rentals: seq<Rental>,
    nextUserId: int,
    nextItemId: int,
    nextMessageId: int)

  /** Every user id is positive, below the counter, and used once. */
  ghost predicate UserIdsFresh(users: seq<User>, next: int) {
    && 1 <= next
    && (forall i :: 0 <= i < |users| ==> 1 <= users[i].id < next)
    && (forall i, j :: 0 <= i < j < |users| ==> users[i].id != users[j].id)
  }

  ghost predicate ItemIdsFresh(items: seq<Item>, next: int) {
    && 1 <= next
    && (forall i :: 0 <= i < |items| ==> 1 <= items[i].id < next)
    && (forall i, j :: 0 <= i < j < |items| ==> items[i].id != items[j].id)
  }

  ghost predicate MessageIdsFresh(messages: seq<Message>, next: int) {
    && 1 <= next
    && (forall i :: 0 <= i < |messages| ==> 1 <= messages[i].id < next)
    && (forall i, j :: 0 <= i < j < |messages| ==> messages[i].id != messages[j].id)
  }

  /** Every id in a table is positive, below the table's counter, and used once. */
  ghost predicate WellFormed(db: Db) {
    && UserIdsFresh(db.users, db.nextUserId)
    && ItemIdsFresh(db.items, db.nextItemId)
    && MessageIdsFresh(db.messages, db.nextMessageId)
  }

  /** Appending a row that takes the counter's id and advancing the counter
      keeps ids fresh. */
  lemma AppendMessageFresh(messages: seq<Message>, next: int, m: Message)
    requires MessageIdsFresh(messages, next) && m.id == next
    ensures MessageIdsFresh(messages + [m], next + 1)
  {
    var r := messages + [m];
    assert forall i :: 0 <= i < |messages| ==> r[i] == messages[i];
  }

  /** Storing a message under the next message id keeps the store well formed. */
  lemma SendKeepsWellFormed(db: Db, m: Message)
    requires WellFormed(db) && m.id == db.nextMessageId
    ensures WellFormed(db.(messages := db.messages + [m], nextMessageId := db.nextMessageId + 1))
  {
    AppendMessageFresh(db.messages, db.nextMessageId, m);
  }

  lemma AppendItemFresh(items: seq<Item>, next: int, it: Item)
    requires ItemIdsFresh(items, next) && it.id == next
    ensures ItemIdsFresh(items + [it], next + 1)
  {
    var r := items + [it];
    assert forall i :: 0 <= i < |items| ==> r[i] == items[i];
  }

  lemma AppendUserFresh(users: seq<User>, next: int, u: User)
    requires UserIdsFresh(users, next) && u.id == next
    ensures UserIdsFresh(users + [u], next + 1)
  {
    var r := users + [u];
    assert forall i :: 0 <= i < |users| ==> r[i] == users[i];
  }

  /** Rewriting rows in place without touching their ids keeps ids fresh. */
  lemma SameMessageIds(before: seq<Message>, after: seq<Message>, next: int)
    requires MessageIdsFresh(before, next)
    requires |after| == |before| && forall i :: 0 <= i < |before| ==> after[i].id == before[i].id
    ensures MessageIdsFresh(after, next)
  {
  }

  lemma SameUserIds(before: seq<User>, after: seq<User>, next: int)
    requires UserIdsFresh(before, next)
    requires |after| == |before| && forall i :: 0 <= i < |before| ==> after[i].id == before[i].id
    ensures UserIdsFresh(after, next)
  {
  }

  /** The first user whose personal email is `email`, as `fetch_assoc` on the
      login query returns it. */
  function FindByPersonalEmail(users: seq<User>, email: string): (r: Option<User>)
    ensures r.None? <==> forall k :: 0 <= k < |users| ==> users[k].personalEmail != email
    ensures r.Some? ==> exists k :: 0 <= k < |users| && users[k] == r.value
                          && (forall j :: 0 <= j < k ==> users[j].personalEmail != email)
    ensures r.Some? ==> r.value.personalEmail == email
  {
    if users == [] then None
    else if users[0].personalEmail == email then Some(users[0])
    else
      var r := FindByPersonalEmail(users[1..], email);
      assert forall k :: 1 <= k < |users| ==> users[k] == users[1..][k - 1];
      r
  }

  /** The first user with id `id`, if any (the items listing's join with
      `users`). */
  function FindUser(users: seq<User>, id: int): (r: Option<User>)
    ensures r.None? <==> forall k :: 0 <= k < |users| ==> users[k].id != id
    ensures r.Some? ==> r.value in users && r.value.id == id
  {
    if users == [] then None
    else if users[0].id == id then Some(users[0])
    else FindUser(users[1..], id)
  }
}

=== FILE: text.dfy ===
/** String predicates the PHP and JavaScript code relies on. Strings are
    sequences of Unicode scalar values; every needle searched for here is
    ASCII, so searching by character agrees with PHP's byte-wise search and
    JavaScript's code-unit-wise search. */
module Text {

  /** PHP's `empty()` on a string: true for "" and for "0". */
  predicate PhpEmpty(s: string) {
    s == "" || s == "0"
  }

  /** `needle` occurs in `s` starting at index `i`. */
  predicate OccursAt(s: string, needle: string, i: int) {
    0 <= i && i + |needle| <= |s| && s[i..i + |needle|] == needle
  }

  /** JavaScript's `s.includes(needle)`: a case-sensitive substring test. */
  predicate Contains(s: string, needle: string) {
    exists i | 0 <= i <= |s| - |needle| :: OccursAt(s, needle, i)
  }

  /** ASCII upper-case letters mapped to lower case, all else unchanged. */
  function AsciiLower(c: char): (d: char)
    ensures 'A' <= c <= 'Z' ==> d as int == c as int + 32
    ensures !('A' <= c <= 'Z') ==> d == c
  {
    if 'A' <= c <= 'Z' then (c as int + 32) as char else c
  }

  /** `s` with every ASCII letter in lower case. */
  function LowerAscii(s: string): (r: string)
    ensures |r| == |s|
    ensures forall k :: 0 <= k < |s| ==> r[k] == AsciiLower(s[k])
  {
    seq(|s|, k requires 0 <= k < |s| => AsciiLower(s[k]))
  }

  /** PCRE's `/needle/i` without the `u` flag: the lower-case `needle` occurs
      in `s` when ASCII letters are compared without regard to case. */
  predicate ContainsIgnoreCase(s: string, needle: string) {
    Contains(LowerAscii(s), needle)
  }

  /** Characters stripped by PHP's `trim()`: space, tab, newline, carriage
      return, NUL and vertical tab. */
  predicate IsTrimSpace(c: char) {
    c == ' ' || c == '\t' || c == '\n' || c == '\r' || c == '\0' || c == '\U{B}'
  }

  /** `s` without its leading trim characters. */
  function TrimLeft(s: string): string {
    if s != [] && IsTrimSpace(s[0]) then TrimLeft(s[1..]) else s
  }

  /** `s` without its trailing trim characters. */
  function TrimRight(s: string): string {
    if s != [] && IsTrimSpace(s[|s| - 1]) then TrimRight(s[..|s| - 1]) else s
  }

  /** `TrimLeft` removes a prefix of trim characters and stops at the first
      other character. */
  lemma {:induction false} TrimLeftCuts(s: string)
    ensures var r := TrimLeft(s);
            && |r| <= |s| && r == s[|s| - |r|..]
            && (r == [] || !IsTrimSpace(r[0]))
            && forall k :: 0 <= k < |s| - |r| ==> IsTrimSpace(s[k])
  {
    if s != [] && IsTrimSpace(s[0]) {
      TrimLeftCuts(s[1..]);
      var r := TrimLeft(s);
      forall k | 1 <= k < |s| - |r|
        ensures IsTrimSpace(s[k])
      {
        assert s[k] == s[1..][k - 1];
      }
    }
  }

  /** `TrimRight` removes a suffix of trim characters and stops at the last
      other character. */
  lemma {:induction false} TrimRightCuts(s: string)
    ensures var r := TrimRight(s);
            && |r| <= |s| && r == s[..|r|]
            && (r == [] || !IsTrimSpace(r[|r| - 1]))
            && forall k :: |r| <= k < |s| ==> IsTrimSpace(s[k])
  {
    if s != [] && IsTrimSpace(s[|s| - 1]) {
      TrimRightCuts(s[..|s| - 1]);
      var r := TrimRight(s);
      forall k | |r| <= k < |s| - 1
        ensures IsTrimSpace(s[k])
      {
        assert s[k] == s[..|s| - 1][k];
      }
    }
  }

  /** PHP's `trim()`. */
  function Trim(s: string): string {
    TrimRight(TrimLeft(s))
  }

  /** The result of `trim()` is a contiguous piece of its input that neither
      starts nor ends with a trim character, and everything cut off on either
      side is a trim character. */
  lemma {:induction false} TrimIsMaximalInnerSlice(s: string)
    ensures exists i, j ::
              && 0 <= i <= j <= |s| && Trim(s) == s[i..j]
              && (forall k :: 0 <= k < i ==> IsTrimSpace(s[k]))
              && (forall k :: j <= k < |s| ==> IsTrimSpace(s[k]))
    ensures Trim(s) == [] || (!IsTrimSpace(Trim(s)[0]) && !IsTrimSpace(Trim(s)[|Trim(s)| - 1]))
  {
    var i, j := TrimWindow(s);
    var l := TrimLeft(s);
    TrimLeftCuts(s);
    TrimRightCuts(l);
    if Trim(s) != [] {
      assert Trim(s)[0] == l[0];
    }
  }

  /** Where `trim()` cuts: everything before `i` and from `j` on is white
      space, and the result is what lies between. */
  lemma {:induction false} TrimWindow(s: string) returns (i: nat, j: nat)
    ensures 0 <= i <= j <= |s| && Trim(s) == s[i..j]
    ensures forall k :: 0 <= k < i ==> IsTrimSpace(s[k])
    ensures forall k :: j <= k < |s| ==> IsTrimSpace(s[k])
  {
    var l := TrimLeft(s);
    var r := TrimRight(l);
    TrimLeftCuts(s);
    TrimRightCuts(l);
    i := |s| - |l|;
    j := i + |r|;
    InnerSlice(s, l, r);
    forall k | j <= k < |s|
      ensures IsTrimSpace(s[k])
    {
      assert |r| <= k - i < |l|;
      assert IsTrimSpace(l[k - i]);
      assert l[k - i] == s[i..][k - i];
    }
  }

  /** A prefix of a suffix is a slice. */
  lemma InnerSlice<T>(s: seq<T>, l: seq<T>, r: seq<T>)
    requires |l| <= |s| && l == s[|s| - |l|..]
    requires |r| <= |l| && r == l[..|r|]
    ensures r == s[|s| - |l|..|s| - |l| + |r|]
  {
  }

  /** Trimming twice is trimming once. */
  lemma {:induction false} TrimIdempotent(s: string)
    ensures Trim(Trim(s)) == Trim(s)
  {
    var t := Trim(s);
    TrimIsMaximalInnerSlice(s);
    assert TrimLeft(t) == t;
    assert TrimRight(t) == t;
  }

  /** The index of the first occurrence of `c`, if any (PHP's `strpos` for a
      one-character needle). */
  function IndexOf(s: string, c: char): (r: int)
    ensures -1 <= r < |s|
    ensures r == -1 <==> c !in s
    ensures r >= 0 ==> s[r] == c && c !in s[..r]
  {
    if s == [] then -1
    else if s[0] == c then 0
    else
      var r := IndexOf(s[1..], c);
      assert s == [s[0]] + s[1..];
      if r == -1 then -1
      else
        assert s[..r + 1] == [s[0]] + s[1..][..r];
        r + 1
  }
}

=== FILE: unicode.dfy ===
/** How long a string is on each side of the wire. The browser measures a
    string in UTF-16 code units (`String.prototype.length`); the server
    receives the same text as UTF-8 and PHP's `strlen` counts bytes. */
module Unicode {

  /** Bytes needed to encode `c` in UTF-8. */
  function Utf8Width(c: char): (w: nat)
    ensures 1 <= w <= 4
  {
    if c as int < 0x80 then 1
    else if c as int < 0x800 then 2
    else if c as int < 0x1_0000 then 3
    else 4
  }

  /** Code units needed to encode `c` in UTF-16: two (a surrogate pair)
      outside the Basic Multilingual Plane. */
  function Utf16Width(c: char): (w: nat)
    ensures 1 <= w <= 2
  {
    if c as int < 0x1_0000 then 1 else 2
  }

  /** PHP's `strlen` of the UTF-8 encoding of `s`. */
  function Utf8Length(s: string): nat {
    if s == [] then 0 else Utf8Width(s[0]) + Utf8Length(s[1..])
  }

  /** JavaScript's `s.length`. */
  function Utf16Length(s: string): nat {
    if s == [] then 0 else Utf16Width(s[0]) + Utf16Length(s[1..])
  }

  /** No character takes fewer UTF-8 bytes than UTF-16 code units, so a
      string never has fewer bytes on the server than code units in the
      browser. */
  lemma {:induction false} Utf16NoLongerThanUtf8(s: string)
    ensures Utf16Length(s) <= Utf8Length(s)
  {
    if s != [] {
      Utf16NoLongerThanUtf8(s[1..]);
    }
  }

  /** Every character counts at least once on both sides. */
  lemma {:induction false} LengthsAtLeastCharCount(s: string)
    ensures |s| <= Utf16Length(s)
    ensures |s| <= Utf8Length(s)
  {
    if s != [] {
      LengthsAtLeastCharCount(s[1..]);
    }
  }

  /** For ASCII text all three lengths agree. */
  lemma {:induction false} AsciiLengths(s: string)
    requires forall k :: 0 <= k < |s| ==> s[k] as int < 0x80
    ensures Utf16Length(s) == |s| && Utf8Length(s) == |s|
  {
    if s != [] {
      AsciiLengths(s[1..]);
    }
  }
}

=== FILE: wrappers.dfy ===
/** Small failure-compatible helpers shared by the whole model. */
module Wrappers {

  /** A value that may be missing: a JSON key that is absent or null, a
      lookup that found nothing, a SQL NULL. */
  datatype Option<+T> = None | Some(value: T) {

    /** The value, or `default` when there is none (PHP's `??`). */
    function GetOr(default: T): T {
      match this
      case Some(v) => v
      case None => default
    }
  }

  /** PHP's `$m[$k] ?? $default` on a string-keyed array. */
  function Lookup<V>(m: map<string, V>, k: string, default: V): (r: V)
    ensures k in m ==> r == m[k]
    ensures k !in m ==> r == default
  {
    if k in m then m[k] else default
  }
}
